=== FILE: README.md ===
# Quant roadmap reminder — a Dafny model

This project models the core of a small daily-SMS reminder that follows a personal career
roadmap. The roadmap is a fixed catalog of milestones. Each milestone has an inclusive date
window, an optional daily action and an optional deadline. Named phases give the message
header its label. A JSON progress document records which milestones are complete and on
which day. Each day the reminder builds one text message from the following parts:

- a header naming the current phase;
- a Monday-only weekly summary;
- up to three focus tasks;
- the overdue milestones, capped at three with a "+N more" line;
- the deadlines of the coming week, sorted by date;
- a progress line with an integer percentage;
- a rotating closing line.

The whole message is cut to 1600 characters.

Modules:

- `Wrappers`: `Option` and `Result`.
- `Seqs`: order-preserving `Filter`, `Take`, `Join` and the `Subsequence` order relation.
- `Calendar`: dates as proleptic day numbers, with day 1 being 0001-01-01. `Ordinal(y, m, d)`
  computes the day number of a calendar date. `Weekday` has Monday as 0. `Ordinal` only serves
  to show that date constants name the dates they claim: the shipped ones
  (`Shipped.DatesAreOrdinals`) and the worked example's (`Scenarios.ScenarioDates`).
  The lemmas `OrdinalNextDay`, `OrdinalNextMonth` and `OrdinalNextYear`, with their arithmetic
  helpers, are sanity checks that `Ordinal` counts days without gaps across month and year ends.
- `Text`: decimal rendering of naturals, with a round-trip lemma.
- `Roadmap`: milestones and phases, `ActiveMilestones` and `CurrentPhase`.
- `Progress`: the progress store as a `map<string, Entry>`. It covers the defaults, the
  load-time merge, `mark_complete`, the two queries and the statistics.
- `Reminder`: every selection rule of the message and `BuildMessage`. The catalog, phases and
  closers are passed in a `Config`.
- `Shipped`: the shipped catalog (30 milestones), the four phases and the 31 closing lines,
  with facts about them.
- `Scenarios`: the complete message for a one-milestone catalog, worked out exactly.

Inputs that the program takes from the clock or the C library are parameters:

- `today` is a day number.
- `dayOfYear` is the day of the year, `tm_yday`, which counts from 1 on 1 January.
- `dateText` is the already formatted "Weekday MM/DD" header text.

The progress file is a `Persisted` value: `Absent`, `Corrupt` (not a JSON object) or
`Present(store)`.

Three details of the code that a casual reading could get wrong:

- The weekly "last week" window is `[today - 7, today]`, both ends included. That is eight
  calendar days, not seven (`Reminder.WeeklyWindowBounds`).
- A completion date counts in that window whether or not the entry is still marked complete.
- The overdue check reads `m.get("deadline", m["end"])`. The upcoming check reads
  `deadline if deadline else end`. When the deadline key is absent or holds a date, these agree: an explicit deadline always
  wins over the window end. A deadline key holding `null` is not modelled (see below).

## Model

| member | source | states |
|---|---|---|
| Seqs.FilterMultiplicity | src/roadmap.py:271 | a filter keeps every copy of a kept element and drops every copy of the others |
| Calendar.Weekday | src/send_reminder.py:108 | Python's `weekday()` convention: a value from 0 to 6, with day 1 (0001-01-01, a Monday) as 0, which is what the Monday-only rule tests |
| Calendar.WeekdayNext | src/send_reminder.py:108 | the weekday advances by one each day, wraps from Sunday (6) to Monday (0), and repeats every seven days |
| Roadmap.ActiveMilestones | src/roadmap.py:269-271 | exactly the catalog milestones whose inclusive window holds today, in catalog order |
| Roadmap.ActiveBoundaries | src/roadmap.py:269-271 | a window's start day and end day are both active; the day before the start and the day after the end are not |
| Roadmap.CurrentPhase | src/roadmap.py:274-279 | None iff no phase contains today; otherwise the first phase, in declaration order, that contains today |
| Roadmap.OverlapGoesToEarlierPhase | src/roadmap.py:274-279 | a day shared by two phases is assigned to the one declared earlier or an even earlier one |
| Shipped.ShippedSizes | src/roadmap.py:10-266 | the shipped catalog has 30 milestones and 4 phases |
| Shipped.ShippedWellFormed | src/roadmap.py:10-259 | every shipped window is non-empty and every explicit deadline equals its window end |
| Shipped.ShippedDeadlines | src/roadmap.py:10-259 | a shipped milestone has an explicit deadline exactly when it has no daily action, and its effective deadline is its end |
| Shipped.DatesAreOrdinals | src/roadmap.py:10-266 | every date constant of the shipped data is the day number of the calendar date it names |
| Shipped.SeptemberIsSummer | src/roadmap.py:261-266 | September 2026 lies in both the summer and the fall phase, and the header reports summer |
| Shipped.PhaseCoverage | src/roadmap.py:261-266 | some phase is current exactly from 2026-01-13 to 2027-03-31 |
| Progress.DefaultProgress | src/progress.py:15-20 | one pending entry per catalog id and no other key |
| Progress.Merge | src/progress.py:33-39 | saved entries are kept as they are, including unknown ids; every missing catalog id gets a pending entry; nothing else is added |
| Progress.MergeIdempotent | src/progress.py:33-39 | merging an already merged store changes nothing |
| Progress.Load | src/progress.py:23-39 | a malformed document is an error, and only then; an absent document gives the defaults and a present one the merge of its store; every loaded store has an entry for every catalog id |
| Progress.LoadSaveLoad | src/progress.py:23-47 | saving the loaded store and loading it again gives back the same store |
| Progress.MergeKeepsCount | src/progress.py:33-39 | the merge never changes the completed count |
| Progress.MarkCompleteUpdate | src/progress.py:53-55 | a stored id becomes completed on today; all other entries and the key set are unchanged; an unknown id is a no-op |
| Progress.MarkCompleteUpdateIdempotent | src/progress.py:53-55 | marking the same id twice on one day equals marking it once |
| Progress.MarkComplete | src/progress.py:50-56 | fails exactly on a malformed document; when the loaded store holds the id, the written document is that store with the id marked completed today; otherwise the document is unchanged (the defaults when it was absent) |
| Progress.MarkCompleteCatalogId | src/progress.py:50-56 | a catalog id is always marked, even when the saved document does not have it yet |
| Progress.MarkCompleteUnknownId | src/progress.py:50-56 | an id neither in the catalog nor in the document leaves the document as loaded |
| Progress.MarkCompleteTwice | src/progress.py:50-56 | applying the whole mark-complete again to its own output on the same day writes the same document |
| Progress.MarkCompleteCountMonotone | src/progress.py:53-55 | marking an entry never lowers the completed count |
| Progress.IsCompleted | src/progress.py:59-60 | an id missing from the store is not completed |
| Progress.CompletedDate | src/progress.py:63-67 | an id missing from the store has no completion date |
| Progress.QueriesOnDefaults | src/progress.py:15-20 | in a fresh store no milestone is completed and none has a completion date |
| Progress.QueriesAfterMerge | src/progress.py:33-39 | the merge changes neither query for any id: both answer as on the saved store |
| Progress.MergeOfCovering | src/progress.py:33-39 | a store that already holds every catalog id comes out of the merge unchanged |
| Progress.MarkedIsCompleted | src/progress.py:50-67 | after marking a stored id, it reads as completed with the marking day as its date |
| Progress.CompletedCount | src/progress.py:73 | at most the catalog size; equal to it iff every catalog milestone is completed; zero iff none is |
| Progress.CountIsFilterLength | src/progress.py:73 | the count is exactly the number of catalog milestones that read as completed |
| Progress.CountIgnoresOtherIds | src/progress.py:70-74 | the count depends only on the completion of catalog ids |
| Progress.GetStats | src/progress.py:70-74 | the total is the catalog size, not the store size, and the completed count is between 0 and the total |
| Reminder.CloserIndex | src/send_reminder.py:63 | the day-of-year index into the closers is always in range |
| Reminder.Closer | src/send_reminder.py:61-64 | the closing line is one of the closers |
| Reminder.CloserPeriodic | src/send_reminder.py:61-64 | day-of-year values a whole number of rotations apart get the same closer |
| Reminder.CloserCycle | src/send_reminder.py:61-64 | within any stretch of as many consecutive day-of-year values as there are closers, no closer index repeats |
| Reminder.Overdue | src/send_reminder.py:67-76 | exactly the incomplete catalog milestones whose effective deadline is strictly before today, in catalog order |
| Reminder.EndDayBoundary | src/send_reminder.py:67-76 | an incomplete milestone without a deadline is active and not overdue on its end day, and overdue the day after |
| Reminder.OverdueShown | src/send_reminder.py:171-172 | exactly min(3, n) of the n overdue milestones, the first ones in order |
| Reminder.OverdueMore | src/send_reminder.py:173-174 | the "+N more" line appears iff more than three are overdue, and shown plus N is the overdue count |
| Reminder.OverdueBlockShape | src/send_reminder.py:166-174 | the overdue block holds the count line, the shown titles in order and the "+N more" line with N the number not shown |
| Reminder.SortByDate | src/send_reminder.py:91 | the result is ascending by date and a permutation of the input |
| Reminder.InsertByDateStable | src/send_reminder.py:91 | inserting an entry puts it ahead of the entries of its own date and leaves other dates alone |
| Reminder.SortByDateStable | src/send_reminder.py:91 | for every date, the entries of that date keep their input order |
| Reminder.UpcomingCandidates | src/send_reminder.py:79-90 | before sorting: exactly the incomplete catalog milestones due within the look-ahead, each paired with its effective deadline, in catalog order |
| Reminder.Upcoming | src/send_reminder.py:79-91 | ascending by date; exactly the incomplete milestones whose effective deadline lies in [today, today + days], each paired with that date |
| Reminder.UpcomingStable | src/send_reminder.py:79-91 | milestones due on the same day appear in catalog order |
| Reminder.UpcomingDaysLeft | src/send_reminder.py:181-183 | every days-left figure lies between 0 and the look-ahead |
| Reminder.OverdueUpcomingDisjoint | src/send_reminder.py:67-91 | no milestone is both overdue and upcoming on the same day |
| Reminder.FocusMilestones | src/send_reminder.py:94-103 | exactly the active, incomplete milestones with a non-empty daily action, in catalog order |
| Reminder.TopFocus | src/send_reminder.py:94-103 | at most count tasks, each a non-empty action of an active incomplete milestone: the first count such actions, or all of them when fewer |
| Reminder.ActiveIncomplete | src/send_reminder.py:130-131 | exactly the active milestones not yet completed, in catalog order |
| Reminder.WeeklySummary | src/send_reminder.py:106-137 | present iff today is a Monday; lists exactly the milestones completed in [today - 7, today] in catalog order, and the first five active incomplete ones |
| Reminder.WeeklyWindowBounds | src/send_reminder.py:111-119 | a completion seven days back or today is listed; one eight days back is not |
| Reminder.WeeklyOnlyOnMonday | src/send_reminder.py:108-109 | a Monday gets the summary; the day before and the day after do not |
| Reminder.WeeklyBlockIffMonday | src/send_reminder.py:152-156 | the line after the header's blank line opens "LAST WEEK" iff today is a Monday |
| Reminder.PercentFloor | src/send_reminder.py:187 | 0 for an empty catalog; otherwise the floor of completed * 100 / total; at most 100, and 100 iff everything is completed |
| Reminder.HeaderNamesPhase | src/send_reminder.py:145-150 | the header names the current phase when its key is non-empty, and says "Off-schedule" when no phase contains today or the phase key is empty |
| Reminder.FocusBlockShape | src/send_reminder.py:158-164 | no block without focus tasks; otherwise a blank line, "TODAY:" and every task numbered from 1 in order |
| Reminder.UpcomingBlockShape | src/send_reminder.py:176-183 | no block when nothing is due; otherwise a blank line, "UPCOMING:" and exactly the first min(3, n) items, each with its title and days left |
| Reminder.WeeklyLinesShape | src/send_reminder.py:122-137 | the summary text: "LAST WEEK:" and one "+" line per completion in order, or the single no-items line; then, when there are active tasks, "THIS WEEK:" and one ">" line per task in order |
| Reminder.ProgressLineFigures | src/send_reminder.py:185-189 | the progress line shows the completed count, the catalog size and a percentage that is at most 100 and is 100 exactly when every catalog milestone is completed |
| Reminder.MessageEndsWithProgressAndCloser | src/send_reminder.py:185-193 | every message ends with the progress line, a blank line and the closer |
| Reminder.Truncate | src/send_reminder.py:197-199 | at most 1600 characters; a short message is unchanged; a long one becomes its first 1597 characters plus "..." |
| Reminder.BuildMessage | src/send_reminder.py:140-201 | fails exactly on a malformed progress document; otherwise at most 1600 characters: the joined lines, or their capped form when too long |
| Scenarios.FreshStoreMessage | src/send_reminder.py:140-201 | on 2026-02-01 with no progress file, the one-milestone message is exactly eight given lines joined by newlines |
| Scenarios.CompletedBeforeTuesday | src/progress.py:50-56 | marking on 2026-01-15 yields the completed store; on the following Tuesday there is no summary, no focus task, and 1/1 (100%) progress |
| Text.NatToStringRoundTrip | src/send_reminder.py:189 | the decimal text of a count reads back as the same number |

## Left out

- Sending the SMS (`send_sms`) and the command-line entry point (`main`): network and process I/O.
- Reading and writing the JSON file. The file is a `Persisted` value, and the write that
  `load_progress` performs when the file is absent is not modelled as an effect. `MarkComplete`
  returns the document as it stands after the call.
- `strftime` and `tm_yday`: the header's day-and-date text and the day of the year are parameters.
- The progress document's dates are ISO strings compared as text. The model uses day numbers;
  for well-formed ISO dates the two orders agree. Entries with missing or malformed fields, and
  a completion date string that `strptime` rejects, are not modelled.
- Reminder.PercentFloor: `Percent` computes the integer floor of `completed * 100 / total`, while the source
  takes the floor of a floating-point product. These agree for the shipped total of 30 but can
  differ by one for other totals (for example 29 of 100).
- Reminder.BuildMessage: requires at least one closer; with none, the source divides by zero.
- The phases are a sequence in declaration order, standing in for the source's ordered
  dictionary. `CurrentPhase` returns the index, not the key; the shipped keys are distinct.
- Shipped.ShippedWellFormed: does not state that the 30 milestone ids are pairwise distinct.
- Reminder.CloserPeriodic: the period is in day-of-year values. `tm_yday` counts from 1 and
  restarts at 1 every 1 January, so two calendar dates a whole number of rotations apart in
  different years need not get the same closer.
- Reminder.CloserCycle: holds only for stretches of day-of-year values within one year. With the
  31 shipped closers the index falls from 365 % 31 = 24 (366 % 31 = 25 in a leap year) to
  1 % 31 = 1 on 1 January, so a closer can repeat across the year boundary.
- A catalog record whose `deadline` key holds `null`. `Milestone.deadline` is `None` only when
  the key is absent. With a `null` value the source's overdue check compares `None < today` and
  raises, while its upcoming check falls back to the window end; the shipped catalog has no such
  record.
- A progress document that is valid JSON but not an object (`null`, a number, a string, or a
  list when the catalog is non-empty). The source raises on it while merging; the model has no
  `Persisted` value for it, and `Corrupt` stands for any document that is not a JSON object.

=== FILE: calendar.dfy ===
/**
 * Dates as integer day numbers. A day number is Python's proleptic Gregorian ordinal
 * (`date.toordinal()`), in which 0001-01-01 is day 1, so `today - timedelta(days=k)` is
 * `today - k` and date comparison is integer comparison.
 */
module Calendar {

  type Day = int

  predicate IsLeap(y: int) {
    y % 4 == 0 && (y % 100 != 0 || y % 400 == 0)
  }

  function DaysInMonth(y: int, m: int): (n: int)
    requires 1 <= m <= 12
    ensures 28 <= n <= 31
  {
    if m == 2 then (if IsLeap(y) then 29 else 28)
    else if m == 4 || m == 6 || m == 9 || m == 11 then 30
    else 31
  }

  function DaysBeforeMonth(y: int, m: int): (n: nat)
    requires 1 <= m <= 12
  {
    if m == 1 then 0 else DaysBeforeMonth(y, m - 1) + DaysInMonth(y, m - 1)
  }

  predicate ValidDate(y: int, m: int, d: int) {
    1 <= y && 1 <= m <= 12 && 1 <= d <= DaysInMonth(y, m)
  }

  /** The day number of year `y`, month `m`, day `d`, computed the way Python's `date.toordinal` does. */
  function Ordinal(y: int, m: int, d: int): (day: Day)
    requires ValidDate(y, m, d)
  {
    var p := y - 1;
    p * 365 + p / 4 - p / 100 + p / 400 + DaysBeforeMonth(y, m) + d
  }

  /** Python's `date.weekday()`: Monday is 0 and Sunday is 6 (0001-01-01 was a Monday). */
  function Weekday(day: Day): (w: int)
    ensures 0 <= w < 7
    ensures day == 1 ==> w == 0
  {
    (day + 6) % 7
  }

  predicate IsMonday(day: Day) {
    Weekday(day) == 0
  }

  /** Within a month, consecutive day-of-month values have consecutive day numbers. */
  lemma OrdinalNextDay(y: int, m: int, d: int)
    requires ValidDate(y, m, d) && ValidDate(y, m, d + 1)
    ensures Ordinal(y, m, d + 1) == Ordinal(y, m, d) + 1
  {
  }

  /** The last day of a month is followed by the first day of the next month. */
  lemma {:induction false} OrdinalNextMonth(y: int, m: int)
    requires 1 <= y && 1 <= m < 12
    ensures Ordinal(y, m + 1, 1) == Ordinal(y, m, DaysInMonth(y, m)) + 1
  {
  }

  lemma MulAtLeast(k: int, n: int)
    requires k >= 1 && n > 0
    ensures k * n >= n
    decreases k
  {
    if k > 1 {
      MulAtLeast(k - 1, n);
      assert k * n == (k - 1) * n + n;
    }
  }

  /** Euclidean division is determined by quotient and remainder. */
  lemma DivModUnique(a: int, n: int, q: int, r: int)
    requires n > 0 && 0 <= r < n && a == q * n + r
    ensures a / n == q && a % n == r
  {
    var q0, r0 := a / n, a % n;
    assert a == q0 * n + r0;
    assert (q - q0) * n == r0 - r by {
      assert (q - q0) * n == q * n - q0 * n;
    }
    if q > q0 {
      MulAtLeast(q - q0, n);
    } else if q < q0 {
      MulAtLeast(q0 - q, n);
    }
  }

  /** Adding one to `p` raises `p / n` by one exactly when `p + 1` is a multiple of `n`. */
  lemma DivStep(p: int, n: int)
    requires n > 0
    ensures (p + 1) / n == p / n + (if (p + 1) % n == 0 then 1 else 0)
  {
    var q, r := p / n, p % n;
    if r == n - 1 {
      DivModUnique(p + 1, n, q + 1, 0);
    } else {
      DivModUnique(p + 1, n, q, r + 1);
    }
  }

  /** A multiple of `k * n` is a multiple of `n`. */
  lemma MultipleOfFactor(y: int, k: int, n: int)
    requires n > 0 && k > 0 && y % (k * n) == 0
    ensures y % n == 0
  {
    var q := y / (k * n);
    assert y == q * (k * n);
    assert y == (q * k) * n + 0;
    DivModUnique(y, n, q * k, 0);
  }

  /** The days before December: eleven months, February counted by the leap rule. */
  lemma DaysBeforeDecember(y: int)
    ensures DaysBeforeMonth(y, 12) == 306 + DaysInMonth(y, 2)
  {
    var feb := DaysInMonth(y, 2);
    assert DaysBeforeMonth(y, 2) == 31;
    assert DaysBeforeMonth(y, 3) == 31 + feb;
    assert DaysBeforeMonth(y, 4) == 62 + feb;
    assert DaysBeforeMonth(y, 5) == 92 + feb;
    assert DaysBeforeMonth(y, 6) == 123 + feb;
    assert DaysBeforeMonth(y, 7) == 153 + feb;
    assert DaysBeforeMonth(y, 8) == 184 + feb;
    assert DaysBeforeMonth(y, 9) == 215 + feb;
    assert DaysBeforeMonth(y, 10) == 245 + feb;
    assert DaysBeforeMonth(y, 11) == 276 + feb;
  }

  /** The leap-day correction grows by one from year `y - 1` to year `y` exactly when `y` is a leap year. */
  lemma LeapCorrectionStep(y: int)
    ensures y / 4 - y / 100 + y / 400
         == (y - 1) / 4 - (y - 1) / 100 + (y - 1) / 400 + (if IsLeap(y) then 1 else 0)
  {
    DivStep(y - 1, 4);
    DivStep(y - 1, 100);
    DivStep(y - 1, 400);
    if y % 400 == 0 {
      MultipleOfFactor(y, 4, 100);
      MultipleOfFactor(y, 100, 4);
    } else if y % 100 == 0 {
      MultipleOfFactor(y, 25, 4);
    }
  }

  /** New Year's Day follows December 31st. */
  lemma {:induction false} OrdinalNextYear(y: int)
    requires 1 <= y
    ensures Ordinal(y + 1, 1, 1) == Ordinal(y, 12, 31) + 1
  {
    DaysBeforeDecember(y);
    LeapCorrectionStep(y);
  }

  /** The weekday advances by one each day and wraps from Sunday to Monday. */
  lemma WeekdayNext(day: Day)
    ensures Weekday(day + 1) == (Weekday(day) + 1) % 7
    ensures Weekday(day + 7) == Weekday(day)
  {
  }
}

=== FILE: progress.dfy ===
/**
 * The progress store (src/progress.py) as a pure map from milestone id to completion state.
 * Reading and writing the JSON document is replaced by the `Persisted` value that
 * stands for what is on disk.
 */
module Progress {
  import opened Wrappers
  import opened Calendar
  import opened Roadmap
  import opened Seqs

  /** One store entry; `completedDate` is the ISO date string of the document, as a day number. */
  datatype Entry = Entry(completed: bool, completedDate: Option<Day>)

  type Store = map<string, Entry>

  /** What the progress document holds: nothing yet, something other than a JSON object, or a store. */
  datatype Persisted = Absent | Corrupt | Present(store: Store)

  /** The error `load_progress` propagates for a document that is not valid JSON. */
  datatype LoadError = ParseError

  /** The entry every milestone starts with. */
  const Pending := Entry(false, None)

  /** `_default_progress`: one pending entry per catalog id, and no other key. */
  function DefaultProgress(catalog: seq<Milestone>): (r: Store)
    ensures forall i :: 0 <= i < |catalog| ==> catalog[i].id in r && r[catalog[i].id] == Pending
    ensures forall id :: id in r ==> exists i :: 0 <= i < |catalog| && catalog[i].id == id
  {
    map i | 0 <= i < |catalog| :: catalog[i].id := Pending
  }

  /**
   * The merge step of `load_progress`: every catalog id missing from the saved store gets a
   * pending entry. Saved entries are never overwritten and ids unknown to the catalog are kept.
   */
  function Merge(saved: Store, catalog: seq<Milestone>): (r: Store)
    ensures forall id :: id in saved ==> id in r && r[id] == saved[id]
    ensures forall i :: 0 <= i < |catalog| ==> catalog[i].id in r
    ensures forall id :: id in r && id !in saved ==>
      r[id] == Pending && exists i :: 0 <= i < |catalog| && catalog[i].id == id
  {
    DefaultProgress(catalog) + saved
  }

  /**
   * `load_progress` without the file access: an absent document yields the defaults (which the
   * source also writes out), a present one is merged, and a malformed one is a parse error.
   */
  function Load(catalog: seq<Milestone>, file: Persisted): (r: Result<Store, LoadError>)
    ensures r.Failure? <==> file.Corrupt?
    ensures r.Success? ==> forall i :: 0 <= i < |catalog| ==> catalog[i].id in r.value
    ensures file.Absent? ==> r == Success(DefaultProgress(catalog))
    ensures file.Present? ==> r == Success(Merge(file.store, catalog))
  {
    match file
    case Absent => Success(DefaultProgress(catalog))
    case Corrupt => Failure(ParseError)
    case Present(saved) => Success(Merge(saved, catalog))
  }

  /**
   * The update step of `mark_complete`: a present id becomes completed on `today`; an
   * absent id leaves the store as it was.
   */
  function MarkCompleteUpdate(store: Store, id: string, today: Day): (r: Store)
    ensures r.Keys == store.Keys
    ensures id in store ==> r[id] == Entry(true, Some(today))
    ensures forall k :: k in store && k != id ==> r[k] == store[k]
    ensures id !in store ==> r == store
  {
    if id in store then store[id := Entry(true, Some(today))] else store
  }

  /**
   * `mark_complete` as a whole: the progress document after the call. The document is
   * loaded (and created when absent), updated, and written back only when the id is in the
   * loaded store; a malformed document is a parse error.
   */
  function MarkComplete(catalog: seq<Milestone>, file: Persisted, id: string, today: Day): (r: Result<Store, LoadError>)
    ensures r.Failure? <==> file.Corrupt?
    ensures r.Success? && id in r.value ==> r.value[id] == Entry(true, Some(today))
    ensures r.Success? && id in Load(catalog, file).value ==>
      r.value == MarkCompleteUpdate(Load(catalog, file).value, id, today)
    ensures r.Success? && id !in Load(catalog, file).value ==>
      r.value == (if file.Present? then file.store else DefaultProgress(catalog))
  {
    match Load(catalog, file)
    case Failure(e) => Failure(e)
    case Success(store) =>
      if id in store then Success(MarkCompleteUpdate(store, id, today))
      else if file.Present? then Success(file.store)
      else Success(store)
  }

  /** `is_completed`: unknown ids count as not completed. */
  function IsCompleted(store: Store, id: string): (b: bool)
    ensures id !in store ==> !b
  {
    id in store && store[id].completed
  }

  /** `get_completed_date`: None when the id or its date is absent. */
  function CompletedDate(store: Store, id: string): (r: Option<Day>)
    ensures id !in store ==> r.None?
  {
    if id in store then store[id].completedDate else None
  }

  /** The counts `get_stats` returns. */
  datatype Stats = Stats(completed: nat, total: nat)

  /** The number of catalog milestones whose entry is completed. */
  function CompletedCount(catalog: seq<Milestone>, store: Store): (n: nat)
    ensures n <= |catalog|
    ensures n == |catalog| <==> forall i :: 0 <= i < |catalog| ==> IsCompleted(store, catalog[i].id)
    ensures n == 0 <==> forall i :: 0 <= i < |catalog| ==> !IsCompleted(store, catalog[i].id)
    decreases |catalog|
  {
    if |catalog| == 0 then 0
    else (if IsCompleted(store, catalog[0].id) then 1 else 0) + CompletedCount(catalog[1..], store)
  }

  /** The count is the number of catalog milestones that read as completed, repeats included. */
  lemma {:induction false} CountIsFilterLength(catalog: seq<Milestone>, store: Store)
    ensures CompletedCount(catalog, store) == |Filter(catalog, (m: Milestone) => IsCompleted(store, m.id))|
    decreases |catalog|
  {
    if |catalog| > 0 {
      CountIsFilterLength(catalog[1..], store);
    }
  }

  /** `get_stats`: the total is the catalog size, never the store size. */
  function GetStats(catalog: seq<Milestone>, store: Store): (s: Stats)
    ensures s.total == |catalog|
    ensures 0 <= s.completed <= s.total
  {
    Stats(CompletedCount(catalog, store), |catalog|)
  }

  /** Merging twice adds nothing the first merge did not. */
  lemma MergeIdempotent(saved: Store, catalog: seq<Milestone>)
    ensures Merge(Merge(saved, catalog), catalog) == Merge(saved, catalog)
  {
  }

  /**
   * Saving what `load_progress` returned and loading it again returns the same store, whether the
   * document started absent or present.
   */
  lemma LoadSaveLoad(catalog: seq<Milestone>, file: Persisted)
    requires !file.Corrupt?
    ensures Load(catalog, Present(Load(catalog, file).value)) == Load(catalog, file)
  {
    match file
    case Absent =>
      var d := DefaultProgress(catalog);
      assert Merge(d, catalog) == d;
    case Present(saved) =>
      MergeIdempotent(saved, catalog);
  }

  /** Marking the same id complete twice on the same day leaves the store as marking it once. */
  lemma MarkCompleteUpdateIdempotent(store: Store, id: string, today: Day)
    ensures MarkCompleteUpdate(MarkCompleteUpdate(store, id, today), id, today)
         == MarkCompleteUpdate(store, id, today)
  {
  }

  /**
   * A catalog id is always marked, even when the document predates the milestone: the load merges
   * it in first.
   */
  lemma MarkCompleteCatalogId(catalog: seq<Milestone>, file: Persisted, i: nat, today: Day)
    requires i < |catalog| && !file.Corrupt?
    ensures MarkComplete(catalog, file, catalog[i].id, today).Success?
    ensures var r := MarkComplete(catalog, file, catalog[i].id, today).value;
      catalog[i].id in r && r[catalog[i].id] == Entry(true, Some(today))
  {
  }

  /** An id that is neither in the catalog nor in the document leaves the document as the load left it. */
  lemma MarkCompleteUnknownId(catalog: seq<Milestone>, file: Persisted, id: string, today: Day)
    requires !file.Corrupt?
    requires forall i :: 0 <= i < |catalog| ==> catalog[i].id != id
    requires file.Present? ==> id !in file.store
    ensures MarkComplete(catalog, file, id, today)
         == Success(if file.Present? then file.store else DefaultProgress(catalog))
  {
  }

  /** The whole `mark_complete`, applied twice on the same day, writes the same document as once. */
  lemma MarkCompleteTwice(catalog: seq<Milestone>, file: Persisted, id: string, today: Day)
    requires !file.Corrupt?
    ensures var once := MarkComplete(catalog, file, id, today).value;
      MarkComplete(catalog, Present(once), id, today) == Success(once)
  {
    var loaded := Load(catalog, file).value;
    var once := MarkComplete(catalog, file, id, today).value;
    if id in loaded {
      assert once == MarkCompleteUpdate(loaded, id, today);
      MergeOfCovering(once, catalog);
      MarkCompleteUpdateIdempotent(loaded, id, today);
    } else if file.Present? {
      assert once == file.store;
    } else {
      assert once == DefaultProgress(catalog);
      MergeOfCovering(once, catalog);
    }
  }

  /** A store that already holds every catalog id is left as it is by the merge. */
  lemma MergeOfCovering(s: Store, catalog: seq<Milestone>)
    requires forall i :: 0 <= i < |catalog| ==> catalog[i].id in s
    ensures Merge(s, catalog) == s
  {
    assert Merge(s, catalog).Keys == s.Keys;
  }

  /** After marking a stored id, `is_completed` reports it done and `get_completed_date` returns the marking day. */
  lemma MarkedIsCompleted(store: Store, id: string, today: Day)
    requires id in store
    ensures IsCompleted(MarkCompleteUpdate(store, id, today), id)
    ensures CompletedDate(MarkCompleteUpdate(store, id, today), id) == Some(today)
  {
  }

  /** In the default store every catalog id reads as not completed and without a date. */
  lemma QueriesOnDefaults(catalog: seq<Milestone>, id: string)
    ensures !IsCompleted(DefaultProgress(catalog), id)
    ensures CompletedDate(DefaultProgress(catalog), id).None?
  {
  }

  /** The merge never changes what the queries report for an id: added entries read as pending, like absent ones. */
  lemma QueriesAfterMerge(saved: Store, catalog: seq<Milestone>, id: string)
    ensures IsCompleted(Merge(saved, catalog), id) == IsCompleted(saved, id)
    ensures CompletedDate(Merge(saved, catalog), id) == CompletedDate(saved, id)
  {
  }

  /** Ids outside the catalog never change the completed count. */
  lemma {:induction false} CountIgnoresOtherIds(catalog: seq<Milestone>, s1: Store, s2: Store)
    requires forall i :: 0 <= i < |catalog| ==> IsCompleted(s1, catalog[i].id) == IsCompleted(s2, catalog[i].id)
    ensures CompletedCount(catalog, s1) == CompletedCount(catalog, s2)
    decreases |catalog|
  {
    if |catalog| > 0 {
      CountIgnoresOtherIds(catalog[1..], s1, s2);
    }
  }

  /** The merge adds only pending entries, so it leaves the completed count alone. */
  lemma MergeKeepsCount(saved: Store, catalog: seq<Milestone>)
    ensures CompletedCount(catalog, Merge(saved, catalog)) == CompletedCount(catalog, saved)
  {
    CountIgnoresOtherIds(catalog, Merge(saved, catalog), saved);
  }

  /** Marking an entry complete never lowers the completed count. */
  lemma {:induction false} MarkCompleteCountMonotone(catalog: seq<Milestone>, store: Store, id: string, today: Day)
    ensures CompletedCount(catalog, store) <= CompletedCount(catalog, MarkCompleteUpdate(store, id, today))
    decreases |catalog|
  {
    if |catalog| > 0 {
      MarkCompleteCountMonotone(catalog[1..], store, id, today);
    }
  }
}

=== FILE: reminder.dfy ===
/**
 * The selection rules and assembly of the daily reminder (src/send_reminder.py):
 * closer rotation, overdue and upcoming filters, focus tasks, the Monday summary,
 * the progress percentage and the final length cap.
 */
module Reminder {
  import opened Wrappers
  import opened Seqs
  import opened Calendar
  import opened Text
  import opened Roadmap
  import opened Progress

  /** The longest message the text gateway accepts. */
  const MaxSmsLength := 1600

  /** How many focus tasks, overdue titles, upcoming items and "this week" titles are shown. */
  const FocusCount := 3
  const OverdueShownMax := 3
  const UpcomingShownMax := 3
  const ThisWeekMax := 5

  /** The look-ahead of the upcoming-deadline block, in days. */
  const UpcomingDays := 7

  /** Everything the reminder reads besides the date and the store: catalog, phases, closing lines. */
  datatype Config = Config(milestones: seq<Milestone>, phases: seq<Phase>, closers: seq<string>)

  // ---------------------------------------------------------------- closer

  /** `day_of_year % len(closers)`: always a valid index into the closers. */
  function CloserIndex(count: nat, dayOfYear: nat): (i: nat)
    requires count > 0
    ensures i < count
  {
    dayOfYear % count
  }

  /** `get_closer`: the closing line for a day of the year. */
  function Closer(closers: seq<string>, dayOfYear: nat): (line: string)
    requires |closers| > 0
    ensures line in closers
  {
    closers[CloserIndex(|closers|, dayOfYear)]
  }

  /** The index is the day of year less a whole number of cycles. */
  lemma CloserIndexCycles(count: nat, dayOfYear: nat)
    requires count > 0
    ensures exists q: nat :: dayOfYear == q * count + CloserIndex(count, dayOfYear)
  {
    var q := dayOfYear / count;
    assert dayOfYear == q * count + dayOfYear % count;
  }

  /**
   * Day-of-year values a whole number of cycles apart get the same line. `tm_yday` counts from
   * 1 and restarts at 1 every 1 January, so this says nothing across a year boundary.
   */
  lemma CloserPeriodic(closers: seq<string>, dayOfYear: nat, k: nat)
    requires |closers| > 0
    ensures Closer(closers, dayOfYear + k * |closers|) == Closer(closers, dayOfYear)
  {
    var n := |closers|;
    var q, i := dayOfYear / n, dayOfYear % n;
    assert dayOfYear + k * n == (q + k) * n + i;
    DivModUnique(dayOfYear + k * n, n, q + k, i);
  }

  /**
   * Within any stretch of `count` consecutive day-of-year values no index is used twice. The stretch
   * must lie within one year, since `tm_yday` restarts at 1 every 1 January.
   */
  lemma CloserCycle(count: nat, d1: nat, d2: nat)
    requires count > 0 && d1 < d2 < d1 + count
    ensures CloserIndex(count, d1) != CloserIndex(count, d2)
  {
    var q1, q2 := d1 / count, d2 / count;
    if d1 % count == d2 % count {
      var q := q2 - q1;
      assert d2 - d1 == q * count by {
        assert d1 == q1 * count + d1 % count;
        assert d2 == q2 * count + d2 % count;
        assert q * count == q2 * count - q1 * count;
      }
      if q >= 1 {
        MulAtLeast(q, count);
      } else if q <= -1 {
        MulAtLeast(-q, count);
      }
    }
  }

  // ---------------------------------------------------------------- overdue

  predicate IsOverdue(m: Milestone, store: Store, today: Day) {
    !IsCompleted(store, m.id) && EffectiveDeadline(m) < today
  }

  /** `get_overdue`: incomplete milestones whose effective deadline is strictly before today, in catalog order. */
  function Overdue(catalog: seq<Milestone>, store: Store, today: Day): (r: seq<Milestone>)
    ensures forall i :: 0 <= i < |r| ==>
      r[i] in catalog && !IsCompleted(store, r[i].id) && EffectiveDeadline(r[i]) < today
    ensures forall i :: 0 <= i < |catalog| && !IsCompleted(store, catalog[i].id) && EffectiveDeadline(catalog[i]) < today ==>
      catalog[i] in r
    ensures Subsequence(r, catalog)
  {
    Filter(catalog, m => IsOverdue(m, store, today))
  }

  /** The overdue titles shown: the first three. */
  function OverdueShown(overdue: seq<Milestone>): (r: seq<Milestone>)
    ensures |r| <= OverdueShownMax
    ensures |r| == if |overdue| < OverdueShownMax then |overdue| else OverdueShownMax
    ensures r <= overdue
    ensures |overdue| <= OverdueShownMax ==> r == overdue
  {
    Take(overdue, OverdueShownMax)
  }

  /** The N of the "+N more" line: present exactly when more than three are overdue, and counting the rest. */
  function OverdueMore(overdue: seq<Milestone>): (more: Option<nat>)
    ensures more.Some? <==> |overdue| > OverdueShownMax
    ensures more.Some? ==> |OverdueShown(overdue)| + more.value == |overdue|
  {
    if |overdue| > OverdueShownMax then Some(|overdue| - OverdueShownMax) else None
  }

  // ---------------------------------------------------------------- upcoming

  /** A milestone paired with the date it is due on (the source's `(m, check_date)` tuple). */
  datatype Dated = Dated(milestone: Milestone, date: Day)

  predicate DueWithin(m: Milestone, store: Store, today: Day, days: int) {
    !IsCompleted(store, m.id) && today <= EffectiveDeadline(m) <= today + days
  }

  function Tag(ms: seq<Milestone>): (r: seq<Dated>)
    ensures |r| == |ms|
    ensures forall i :: 0 <= i < |ms| ==> r[i] == Dated(ms[i], EffectiveDeadline(ms[i]))
  {
    seq(|ms|, i requires 0 <= i < |ms| => Dated(ms[i], EffectiveDeadline(ms[i])))
  }

  function Untag(ds: seq<Dated>): (r: seq<Milestone>)
    ensures |r| == |ds|
    ensures forall i :: 0 <= i < |ds| ==> r[i] == ds[i].milestone
  {
    seq(|ds|, i requires 0 <= i < |ds| => ds[i].milestone)
  }

  /** The source's `upcoming` list before sorting: due milestones with their date, in catalog order. */
  function UpcomingCandidates(catalog: seq<Milestone>, store: Store, today: Day, days: int): (r: seq<Dated>)
    ensures forall i :: 0 <= i < |r| ==>
      r[i].milestone in catalog && r[i].date == EffectiveDeadline(r[i].milestone) &&
      DueWithin(r[i].milestone, store, today, days)
    ensures forall i :: 0 <= i < |catalog| && DueWithin(catalog[i], store, today, days) ==>
      Dated(catalog[i], EffectiveDeadline(catalog[i])) in r
    ensures Subsequence(Untag(r), catalog)
  {
    var due := Filter(catalog, m => DueWithin(m, store, today, days));
    assert Untag(Tag(due)) == due;
    Tag(due)
  }

  predicate SortedByDate(s: seq<Dated>) {
    forall i, j :: 0 <= i < j < |s| ==> s[i].date <= s[j].date
  }

  /** The entries of `s` dated `k`, in their order in `s`. */
  function WithDate(s: seq<Dated>, k: Day): (r: seq<Dated>)
    ensures forall i :: 0 <= i < |r| ==> r[i] in s && r[i].date == k
    decreases |s|
  {
    if |s| == 0 then []
    else (if s[0].date == k then [s[0]] else []) + WithDate(s[1..], k)
  }

  lemma WithDateCons(x: Dated, s: seq<Dated>)
    ensures forall k :: WithDate([x] + s, k) == (if x.date == k then [x] else []) + WithDate(s, k)
  {
    assert ([x] + s)[1..] == s;
  }

  /**
   * Insert `x` before the first entry not dated earlier than it. Used on entries that came
   * later in the input, this keeps entries with equal dates in input order.
   */
  function InsertByDate(x: Dated, s: seq<Dated>): (r: seq<Dated>)
    requires SortedByDate(s)
    ensures SortedByDate(r)
    ensures multiset(r) == multiset(s) + multiset{x}
    ensures |r| == |s| + 1 && (r[0] == x || (|s| > 0 && r[0] == s[0]))
    decreases |s|
  {
    if |s| == 0 || x.date <= s[0].date then [x] + s
    else
      var rest := InsertByDate(x, s[1..]);
      assert s == [s[0]] + s[1..];
      [s[0]] + rest
  }

  /** Inserting `x` adds it in front of the entries of its own date and leaves other dates alone. */
  lemma {:induction false} InsertByDateStable(x: Dated, s: seq<Dated>, k: Day)
    requires SortedByDate(s)
    ensures WithDate(InsertByDate(x, s), k) == (if x.date == k then [x] else []) + WithDate(s, k)
    decreases |s|
  {
    WithDateCons(x, s);
    if |s| > 0 && x.date > s[0].date {
      var rest := InsertByDate(x, s[1..]);
      InsertByDateStable(x, s[1..], k);
      WithDateCons(s[0], rest);
      WithDateCons(s[0], s[1..]);
      assert s == [s[0]] + s[1..];
    }
  }

  /**
   * Python's `sorted(..., key=date)`: ascending by date and a permutation of the input.
   * `SortByDateStable` shows it is also stable.
   */
  function SortByDate(s: seq<Dated>): (r: seq<Dated>)
    ensures SortedByDate(r)
    ensures multiset(r) == multiset(s)
    decreases |s|
  {
    if |s| == 0 then []
    else
      assert s == [s[0]] + s[1..];
      InsertByDate(s[0], SortByDate(s[1..]))
  }

  /** The sort is stable: for every date, the entries of that date keep their input order. */
  lemma {:induction false} SortByDateStable(s: seq<Dated>, k: Day)
    ensures WithDate(SortByDate(s), k) == WithDate(s, k)
    decreases |s|
  {
    if |s| > 0 {
      SortByDateStable(s[1..], k);
      InsertByDateStable(s[0], SortByDate(s[1..]), k);
      WithDateCons(s[0], s[1..]);
      assert s == [s[0]] + s[1..];
    }
  }

  /** Sequences with the same multiset have the same members. */
  lemma SameMembers(a: seq<Dated>, b: seq<Dated>)
    requires multiset(a) == multiset(b)
    ensures forall x :: x in a <==> x in b
  {
    forall x ensures x in a <==> x in b {
      assert x in a <==> x in multiset(a);
      assert x in b <==> x in multiset(b);
    }
  }

  lemma UpcomingMembers(catalog: seq<Milestone>, store: Store, today: Day, days: int, c: seq<Dated>, r: seq<Dated>)
    requires c == UpcomingCandidates(catalog, store, today, days)
    requires multiset(r) == multiset(c)
    ensures forall i :: 0 <= i < |r| ==>
      r[i].milestone in catalog && r[i].date == EffectiveDeadline(r[i].milestone) &&
      DueWithin(r[i].milestone, store, today, days)
    ensures forall i :: 0 <= i < |catalog| && DueWithin(catalog[i], store, today, days) ==>
      Dated(catalog[i], EffectiveDeadline(catalog[i])) in r
  {
    SameMembers(r, c);
    forall i | 0 <= i < |r|
      ensures r[i].milestone in catalog && r[i].date == EffectiveDeadline(r[i].milestone) &&
        DueWithin(r[i].milestone, store, today, days)
    {
      assert r[i] in c;
      var j :| 0 <= j < |c| && c[j] == r[i];
    }
  }

  /**
   * `get_upcoming_deadlines`: the incomplete milestones whose effective deadline lies in
   * `[today, today + days]`, with that date, ascending by date, ties in catalog order.
   */
  function Upcoming(catalog: seq<Milestone>, store: Store, today: Day, days: int): (r: seq<Dated>)
    ensures SortedByDate(r)
    ensures forall i :: 0 <= i < |r| ==>
      r[i].milestone in catalog && r[i].date == EffectiveDeadline(r[i].milestone) &&
      DueWithin(r[i].milestone, store, today, days)
    ensures forall i :: 0 <= i < |catalog| && DueWithin(catalog[i], store, today, days) ==>
      Dated(catalog[i], EffectiveDeadline(catalog[i])) in r
  {
    var c := UpcomingCandidates(catalog, store, today, days);
    var r := SortByDate(c);
    UpcomingMembers(catalog, store, today, days, c, r);
    r
  }

  /** Milestones due on the same day appear in the order they had in the catalog. */
  lemma UpcomingStable(catalog: seq<Milestone>, store: Store, today: Day, days: int, k: Day)
    ensures WithDate(Upcoming(catalog, store, today, days), k) == WithDate(UpcomingCandidates(catalog, store, today, days), k)
    ensures Subsequence(Untag(UpcomingCandidates(catalog, store, today, days)), catalog)
  {
    SortByDateStable(UpcomingCandidates(catalog, store, today, days), k);
  }

  /** Every days-left figure of the upcoming block lies in `[0, days]`. */
  lemma UpcomingDaysLeft(catalog: seq<Milestone>, store: Store, today: Day, days: int, i: nat)
    requires i < |Upcoming(catalog, store, today, days)|
    ensures 0 <= Upcoming(catalog, store, today, days)[i].date - today <= days
  {
  }

  /** No milestone is both overdue and upcoming on the same day. */
  lemma OverdueUpcomingDisjoint(catalog: seq<Milestone>, store: Store, today: Day, days: int)
    ensures forall i, j :: 0 <= i < |Overdue(catalog, store, today)| && 0 <= j < |Upcoming(catalog, store, today, days)| ==>
      Overdue(catalog, store, today)[i] != Upcoming(catalog, store, today, days)[j].milestone
  {
  }

  /**
   * A milestone is still active on its last day and not yet overdue; from the next day on, if
   * still incomplete, it is overdue.
   */
  lemma EndDayBoundary(catalog: seq<Milestone>, store: Store, m: Milestone)
    requires m in catalog && m.start <= m.end && m.deadline.None? && !IsCompleted(store, m.id)
    ensures m in ActiveMilestones(catalog, m.end)
    ensures m !in Overdue(catalog, store, m.end)
    ensures m in Overdue(catalog, store, m.end + 1)
  {
  }

  // ---------------------------------------------------------------- focus

  predicate HasFocusAction(m: Milestone, store: Store) {
    !IsCompleted(store, m.id) && m.dailyAction.Some? && m.dailyAction.value != ""
  }

  /** Active, incomplete milestones with a non-empty daily action, in catalog order. */
  function FocusMilestones(catalog: seq<Milestone>, store: Store, today: Day): (r: seq<Milestone>)
    ensures forall i :: 0 <= i < |r| ==> r[i] in catalog && IsActive(r[i], today) && HasFocusAction(r[i], store)
    ensures forall i :: 0 <= i < |catalog| && IsActive(catalog[i], today) && HasFocusAction(catalog[i], store) ==>
      catalog[i] in r
    ensures Subsequence(r, catalog)
  {
    var active := ActiveMilestones(catalog, today);
    var r := Filter(active, m => HasFocusAction(m, store));
    SubsequenceTrans(r, active, catalog);
    r
  }

  function Actions(ms: seq<Milestone>): (r: seq<string>)
    ensures |r| == |ms|
    ensures forall i :: 0 <= i < |ms| ==> r[i] == ms[i].dailyAction.GetOr("")
  {
    seq(|ms|, i requires 0 <= i < |ms| => ms[i].dailyAction.GetOr(""))
  }

  lemma FocusWitnesses(catalog: seq<Milestone>, store: Store, today: Day, fm: seq<Milestone>, r: seq<string>)
    requires fm == FocusMilestones(catalog, store, today)
    requires r <= Actions(fm)
    ensures forall i :: 0 <= i < |r| ==>
      r[i] != "" &&
      exists m :: m in catalog && IsActive(m, today) && !IsCompleted(store, m.id) && m.dailyAction == Some(r[i])
  {
    forall i | 0 <= i < |r|
      ensures r[i] != "" &&
        exists m :: m in catalog && IsActive(m, today) && !IsCompleted(store, m.id) && m.dailyAction == Some(r[i])
    {
      var m := fm[i];
      assert r[i] == Actions(fm)[i] == m.dailyAction.value;
      assert m in catalog && IsActive(m, today) && !IsCompleted(store, m.id) && m.dailyAction == Some(r[i]);
    }
  }

  /**
   * `get_top_focus`: at most `count` daily actions, each the non-empty action of an active,
   * incomplete milestone; the first `count` such actions in catalog order.
   */
  function TopFocus(catalog: seq<Milestone>, store: Store, today: Day, count: nat): (r: seq<string>)
    ensures |r| <= count
    ensures forall i :: 0 <= i < |r| ==>
      r[i] != "" &&
      exists m :: m in catalog && IsActive(m, today) && !IsCompleted(store, m.id) && m.dailyAction == Some(r[i])
    ensures r <= Actions(FocusMilestones(catalog, store, today))
    ensures |r| == count || |r| == |FocusMilestones(catalog, store, today)|
  {
    var fm := FocusMilestones(catalog, store, today);
    var r := Take(Actions(fm), count);
    FocusWitnesses(catalog, store, today, fm, r);
    r
  }

  // ---------------------------------------------------------------- weekly summary

  /** The two lists of the Monday summary: completions of the past week and this week's priorities. */
  datatype Weekly = Weekly(completedLastWeek: seq<Milestone>, thisWeek: seq<Milestone>)

  /** The milestone's entry carries a completion date within `[lo, hi]`. */
  predicate CompletedWithin(store: Store, m: Milestone, lo: Day, hi: Day) {
    var d := CompletedDate(store, m.id);
    d.Some? && lo <= d.value <= hi
  }

  /** Active milestones not yet completed, in catalog order. */
  function ActiveIncomplete(catalog: seq<Milestone>, store: Store, today: Day): (r: seq<Milestone>)
    ensures forall i :: 0 <= i < |r| ==> r[i] in catalog && IsActive(r[i], today) && !IsCompleted(store, r[i].id)
    ensures forall i :: 0 <= i < |catalog| && IsActive(catalog[i], today) && !IsCompleted(store, catalog[i].id) ==>
      catalog[i] in r
    ensures Subsequence(r, catalog)
  {
    var active := ActiveMilestones(catalog, today);
    var r := Filter(active, (m: Milestone) => !IsCompleted(store, m.id));
    SubsequenceTrans(r, active, catalog);
    r
  }

  /**
   * `get_weekly_summary`: nothing except on Mondays; on a Monday, the milestones completed in
   * `[today - 7, today]` (eight calendar days) and at most five active, incomplete ones.
   */
  function WeeklySummary(catalog: seq<Milestone>, store: Store, today: Day): (r: Option<Weekly>)
    ensures r.Some? <==> IsMonday(today)
    ensures r.Some? ==> forall i :: 0 <= i < |r.value.completedLastWeek| ==>
      r.value.completedLastWeek[i] in catalog && CompletedWithin(store, r.value.completedLastWeek[i], today - 7, today)
    ensures r.Some? ==> forall i :: 0 <= i < |catalog| && CompletedWithin(store, catalog[i], today - 7, today) ==>
      catalog[i] in r.value.completedLastWeek
    ensures r.Some? ==> Subsequence(r.value.completedLastWeek, catalog)
    ensures r.Some? ==> |r.value.thisWeek| <= ThisWeekMax && Subsequence(r.value.thisWeek, catalog)
    ensures r.Some? ==> forall i :: 0 <= i < |r.value.thisWeek| ==>
      IsActive(r.value.thisWeek[i], today) && !IsCompleted(store, r.value.thisWeek[i].id)
    ensures r.Some? ==> r.value.thisWeek <= ActiveIncomplete(catalog, store, today)
    ensures r.Some? ==> |r.value.thisWeek| == ThisWeekMax || |r.value.thisWeek| == |ActiveIncomplete(catalog, store, today)|
  {
    if !IsMonday(today) then None
    else
      var done := Filter(catalog, m => CompletedWithin(store, m, today - 7, today));
      var ai := ActiveIncomplete(catalog, store, today);
      var top := Take(ai, ThisWeekMax);
      PrefixSubsequence(ai, catalog, |top|);
      assert top == ai[..|top|];
      Some(Weekly(done, top))
  }

  /**
   * The weekly window spans eight calendar days: a completion dated a week back (the previous
   * Monday) or today is listed, one dated eight days back is not.
   */
  lemma WeeklyWindowBounds(catalog: seq<Milestone>, store: Store, today: Day, m: Milestone)
    requires IsMonday(today) && m in catalog && m.id in store
    ensures store[m.id].completedDate == Some(today - 7) ==> m in WeeklySummary(catalog, store, today).value.completedLastWeek
    ensures store[m.id].completedDate == Some(today) ==> m in WeeklySummary(catalog, store, today).value.completedLastWeek
    ensures store[m.id].completedDate == Some(today - 8) ==> m !in WeeklySummary(catalog, store, today).value.completedLastWeek
  {
  }

  /** Of two consecutive days at most one gets the summary, and a Monday always does. */
  lemma WeeklyOnlyOnMonday(catalog: seq<Milestone>, store: Store, today: Day)
    requires IsMonday(today)
    ensures WeeklySummary(catalog, store, today).Some?
    ensures WeeklySummary(catalog, store, today + 1).None?
    ensures WeeklySummary(catalog, store, today - 1).None?
  {
    WeekdayNext(today);
    WeekdayNext(today - 1);
    assert !IsMonday(today + 1) && !IsMonday(today - 1);
  }

  // ---------------------------------------------------------------- progress and length cap

  /** The integer percentage of `completed` out of `total`, rounded down; 0 for an empty catalog. */
  function Percent(completed: nat, total: nat): (p: nat) {
    if total > 0 then completed * 100 / total else 0
  }

  /**
   * The percentage is the floor of `completed * 100 / total`, 0 for an empty catalog; for a count
   * within the total it is at most 100, and exactly 100 when everything is completed.
   */
  lemma PercentFloor(completed: nat, total: nat)
    ensures total == 0 ==> Percent(completed, total) == 0
    ensures total > 0 ==>
      var p := Percent(completed, total);
      p * total <= completed * 100 < (p + 1) * total
    ensures completed <= total ==> Percent(completed, total) <= 100
    ensures 0 < total && completed <= total ==> (Percent(completed, total) == 100 <==> completed == total)
  {
    if total > 0 {
      var a := completed * 100;
      var q, r := a / total, a % total;
      assert a == q * total + r;
      assert (q + 1) * total == q * total + total;
      if completed <= total {
        if q > 100 {
          MulAtLeast(q - 100, total);
        }
        if completed == total {
          DivModUnique(a, total, 100, 0);
        }
      }
    }
  }

  /**
   * The final cap of `build_message`: a message over the limit becomes its first 1597 characters
   * followed by "...", exactly 1600 characters; a message within it is unchanged.
   */
  function Truncate(message: string): (r: string)
    ensures |r| <= MaxSmsLength
    ensures |message| <= MaxSmsLength ==> r == message
    ensures |message| > MaxSmsLength ==>
      |r| == MaxSmsLength && r[..MaxSmsLength - 3] == message[..MaxSmsLength - 3] && r[MaxSmsLength - 3..] == "..."
  {
    if |message| > MaxSmsLength then message[..MaxSmsLength - 3] + "..." else message
  }

  // ---------------------------------------------------------------- message assembly

  function TitleLines(prefix: string, ms: seq<Milestone>): (r: seq<string>)
    ensures |r| == |ms|
    ensures forall i :: 0 <= i < |ms| ==> r[i] == prefix + ms[i].title
  {
    seq(|ms|, i requires 0 <= i < |ms| => prefix + ms[i].title)
  }

  /**
   * The first line: the formatted date and the label of the current phase. As in the source, a
   * phase with an empty key counts as no phase, so the header then says "Off-schedule".
   */
  function Header(cfg: Config, today: Day, dateText: string): (line: string) {
    var phaseName := match CurrentPhase(cfg.phases, today)
      case Some(i) => if cfg.phases[i].key != "" then cfg.phases[i].name else "Off-schedule"
      case None => "Off-schedule";
    dateText + " | " + phaseName
  }

  /**
   * The header names the current phase; it says "Off-schedule" when no phase contains today, or
   * when the first phase that does has an empty key.
   */
  lemma HeaderNamesPhase(cfg: Config, today: Day, dateText: string)
    ensures CurrentPhase(cfg.phases, today).Some? && cfg.phases[CurrentPhase(cfg.phases, today).value].key != "" ==>
      Header(cfg, today, dateText) == dateText + " | " + cfg.phases[CurrentPhase(cfg.phases, today).value].name
    ensures CurrentPhase(cfg.phases, today).Some? && cfg.phases[CurrentPhase(cfg.phases, today).value].key == "" ==>
      Header(cfg, today, dateText) == dateText + " | Off-schedule"
    ensures CurrentPhase(cfg.phases, today).None? ==> Header(cfg, today, dateText) == dateText + " | Off-schedule"
  {
  }

  function WeeklyLines(w: Weekly): (lines: seq<string>)
    ensures |lines| > 0 && OpensWeekly(lines[0])
  {
    (if |w.completedLastWeek| > 0 then ["LAST WEEK:"] + TitleLines("  + ", w.completedLastWeek)
     else ["LAST WEEK: No items completed"])
    + (if |w.thisWeek| > 0 then ["THIS WEEK:"] + TitleLines("  > ", w.thisWeek) else [])
  }

  function FocusLines(tasks: seq<string>): (r: seq<string>)
    ensures |r| == |tasks|
  {
    seq(|tasks|, i requires 0 <= i < |tasks| => "  " + NatToString(i + 1) + ". " + tasks[i])
  }

  function OverdueLines(overdue: seq<Milestone>): (b: seq<string>)
    ensures |b| == 0 <==> |overdue| == 0
    ensures |b| > 0 ==> |b| >= 2 && b[0] == "" && |b[1]| > 0 && b[1][0] == 'O'
  {
    if |overdue| == 0 then []
    else
      ["", "OVERDUE (" + NatToString(|overdue|) + "):"]
      + TitleLines("  ! ", OverdueShown(overdue))
      + (match OverdueMore(overdue)
         case Some(n) => ["  ...+" + NatToString(n) + " more"]
         case None => [])
  }

  /**
   * The overdue block: a blank line and the count, at most three titles, and a "+N more" line
   * with N the number not shown exactly when more than three are overdue.
   */
  lemma OverdueBlockShape(overdue: seq<Milestone>)
    requires |overdue| > 0
    ensures var lines := OverdueLines(overdue);
      var shown := if |overdue| < OverdueShownMax then |overdue| else OverdueShownMax;
      |lines| == 2 + shown + (if |overdue| > OverdueShownMax then 1 else 0) &&
      lines[1] == "OVERDUE (" + NatToString(|overdue|) + "):" &&
      (forall i :: 0 <= i < shown ==> lines[2 + i] == "  ! " + overdue[i].title) &&
      (|overdue| > OverdueShownMax ==> lines[|lines| - 1] == "  ...+" + NatToString(|overdue| - OverdueShownMax) + " more")
  {
  }

  function DueLines(ds: seq<Dated>, today: Day): (r: seq<string>)
    requires forall i :: 0 <= i < |ds| ==> ds[i].date >= today
    ensures |r| == |ds|
    ensures forall i :: 0 <= i < |ds| ==>
      r[i] == "  " + ds[i].milestone.title + " (" + NatToString(ds[i].date - today) + "d)"
  {
    seq(|ds|, i requires 0 <= i < |ds| =>
      "  " + ds[i].milestone.title + " (" + NatToString(ds[i].date - today) + "d)")
  }

  function ProgressLine(s: Stats): (line: string)
    ensures |line| > 0 && line[0] == 'P'
  {
    "PROGRESS: " + NatToString(s.completed) + "/" + NatToString(s.total)
      + " milestones (" + NatToString(Percent(s.completed, s.total)) + "%)"
  }

  /**
   * The weekly summary text: "LAST WEEK:" and one "+" line per completion, or a single line saying
   * nothing was completed; then "THIS WEEK:" and one ">" line per priority when there is any.
   */
  lemma WeeklyLinesShape(w: Weekly)
    ensures var lines := WeeklyLines(w);
      var done := w.completedLastWeek;
      var next := w.thisWeek;
      var k := if |done| == 0 then 1 else 1 + |done|;
      |lines| == k + (if |next| > 0 then 1 + |next| else 0) &&
      (|done| == 0 ==> lines[0] == "LAST WEEK: No items completed") &&
      (|done| > 0 ==> lines[0] == "LAST WEEK:" && forall i :: 0 <= i < |done| ==> lines[1 + i] == "  + " + done[i].title) &&
      (|next| > 0 ==> lines[k] == "THIS WEEK:" && forall i :: 0 <= i < |next| ==> lines[k + 1 + i] == "  > " + next[i].title)
  {
  }

  /**
   * The progress line reports the completed count, the catalog size and the percentage, which is
   * the floor of the completed share, at most 100, and 100 exactly when a non-empty catalog is done.
   */
  lemma ProgressLineFigures(catalog: seq<Milestone>, store: Store)
    ensures var c := CompletedCount(catalog, store);
      var p := Percent(c, |catalog|);
      ProgressLine(GetStats(catalog, store))
        == "PROGRESS: " + NatToString(c) + "/" + NatToString(|catalog|) + " milestones (" + NatToString(p) + "%)" &&
      p <= 100 &&
      (|catalog| > 0 ==> p * |catalog| <= c * 100 < (p + 1) * |catalog|) &&
      (p == 100 <==> |catalog| > 0 && c == |catalog|)
  {
    PercentFloor(CompletedCount(catalog, store), |catalog|);
  }

  /** The Monday block: a blank line, then the summary; empty on other days. */
  function WeeklyBlock(catalog: seq<Milestone>, store: Store, today: Day): (b: seq<string>)
    ensures |b| == 0 <==> !IsMonday(today)
    ensures |b| > 0 ==> |b| >= 2 && b[0] == "" && OpensWeekly(b[1])
  {
    match WeeklySummary(catalog, store, today)
    case Some(w) => [""] + WeeklyLines(w)
    case None => []
  }

  /** The "TODAY:" block of numbered focus tasks, left out when there is none. */
  function FocusBlock(focus: seq<string>): (b: seq<string>)
    ensures |b| == 0 || (|b| >= 2 && b[0] == "" && b[1] == "TODAY:")
  {
    if |focus| > 0 then ["", "TODAY:"] + FocusLines(focus) else []
  }

  /** The "UPCOMING:" block of the first three upcoming items with days left, left out when there is none. */
  function UpcomingBlock(upcoming: seq<Dated>, today: Day): (b: seq<string>)
    requires forall i :: 0 <= i < |upcoming| ==> upcoming[i].date >= today
    ensures |b| == 0 || (|b| >= 2 && b[0] == "" && b[1] == "UPCOMING:")
  {
    if |upcoming| > 0 then ["", "UPCOMING:"] + DueLines(Take(upcoming, UpcomingShownMax), today) else []
  }

  /**
   * The focus block: empty when there is no focus task; otherwise a blank line, "TODAY:" and the
   * tasks numbered from 1 in order. `TopFocus` supplies at most three of them.
   */
  lemma FocusBlockShape(focus: seq<string>)
    ensures var b := FocusBlock(focus);
      (|b| == 0 <==> |focus| == 0) &&
      (|focus| > 0 ==>
        |b| == 2 + |focus| && b[0] == "" && b[1] == "TODAY:" &&
        forall i :: 0 <= i < |focus| ==> b[2 + i] == "  " + NatToString(i + 1) + ". " + focus[i])
  {
  }

  /**
   * The upcoming block: empty when nothing is due; otherwise a blank line, "UPCOMING:" and the
   * first three items in the given (date) order, each with its title and its days left.
   * `UpcomingDaysLeft` bounds those figures for the list `Upcoming` returns.
   */
  lemma UpcomingBlockShape(up: seq<Dated>, today: Day)
    requires forall i :: 0 <= i < |up| ==> up[i].date >= today
    ensures var shown := if |up| < UpcomingShownMax then |up| else UpcomingShownMax;
      var b := UpcomingBlock(up, today);
      (|b| == 0 <==> |up| == 0) &&
      (|up| > 0 ==>
        |b| == 2 + shown && b[0] == "" && b[1] == "UPCOMING:" &&
        forall i :: 0 <= i < shown ==>
          b[2 + i] == "  " + up[i].milestone.title + " (" + NatToString(up[i].date - today) + "d)")
  {
    var shown := Take(up, UpcomingShownMax);
    assert forall i :: 0 <= i < |shown| ==> shown[i] == up[i];
  }

  /** Everything after the header and the weekly block, ending with the progress line and the closer. */
  function MessageBody(cfg: Config, store: Store, today: Day, dayOfYear: nat): (b: seq<string>)
    requires |cfg.closers| > 0
  {
    Assemble(
      FocusBlock(TopFocus(cfg.milestones, store, today, FocusCount)),
      OverdueLines(Overdue(cfg.milestones, store, today)),
      UpcomingBlock(Upcoming(cfg.milestones, store, today, UpcomingDays), today),
      ProgressLine(GetStats(cfg.milestones, store)),
      Closer(cfg.closers, dayOfYear))
  }

  /** The three optional blocks in order, then a blank line, the progress line, a blank line and the closer. */
  function Assemble(focus: seq<string>, overdue: seq<string>, upcoming: seq<string>, progress: string, closer: string): (b: seq<string>) {
    focus + overdue + upcoming + ["", progress, "", closer]
  }

  lemma MessageBodyShape(cfg: Config, store: Store, today: Day, dayOfYear: nat)
    requires |cfg.closers| > 0
    ensures var b := MessageBody(cfg, store, today, dayOfYear);
      |b| >= 4 && b[0] == "" && !OpensWeekly(b[1]) &&
      b[|b| - 3] == ProgressLine(GetStats(cfg.milestones, store)) &&
      b[|b| - 2] == "" &&
      b[|b| - 1] == Closer(cfg.closers, dayOfYear)
  {
    var focus := TopFocus(cfg.milestones, store, today, FocusCount);
    var up := Upcoming(cfg.milestones, store, today, UpcomingDays);
    RestOpening(FocusBlock(focus), OverdueLines(Overdue(cfg.milestones, store, today)), UpcomingBlock(up, today),
      ProgressLine(GetStats(cfg.milestones, store)), Closer(cfg.closers, dayOfYear));
  }

  /** The lines of `build_message` before they are joined with newlines and capped. */
  function MessageLines(cfg: Config, store: Store, today: Day, dayOfYear: nat, dateText: string): (lines: seq<string>)
    requires |cfg.closers| > 0
  {
    [Header(cfg, today, dateText)]
    + WeeklyBlock(cfg.milestones, store, today)
    + MessageBody(cfg, store, today, dayOfYear)
  }

  /** True when `line` opens with the "LAST WEEK" heading of the weekly summary. */
  predicate OpensWeekly(line: string) {
    |line| >= 9 && line[..9] == "LAST WEEK"
  }

  /** Whatever follows the weekly block opens with a blank line and then a heading that is not "LAST WEEK". */
  lemma RestOpening(f: seq<string>, o: seq<string>, u: seq<string>, progress: string, closer: string)
    requires |f| == 0 || (|f| >= 2 && f[0] == "" && f[1] == "TODAY:")
    requires |o| == 0 || (|o| >= 2 && o[0] == "" && |o[1]| > 0 && o[1][0] == 'O')
    requires |u| == 0 || (|u| >= 2 && u[0] == "" && u[1] == "UPCOMING:")
    requires |progress| > 0 && progress[0] == 'P'
    ensures var rest := Assemble(f, o, u, progress, closer);
      |rest| >= 4 && rest[0] == "" && !OpensWeekly(rest[1]) &&
      rest[|rest| - 3] == progress && rest[|rest| - 2] == "" && rest[|rest| - 1] == closer
  {
    var rest := Assemble(f, o, u, progress, closer);
    var tail := ["", progress, "", closer];
    var k := |f + o + u|;
    assert rest[k..] == tail;
    if |f| > 0 {
      assert rest[1] == f[1];
      assert rest[1][0] == 'T';
    } else if |o| > 0 {
      assert rest[1] == o[1];
    } else if |u| > 0 {
      assert rest[1] == u[1];
      assert rest[1][0] == 'U';
    } else {
      assert rest[1] == tail[1];
    }
  }

  /** Where the optional weekly block sits: right after the header, ahead of a body that does not open "LAST WEEK". */
  lemma WeeklyPosition(header: string, w: seq<string>, body: seq<string>)
    requires |w| == 0 || (|w| >= 2 && w[0] == "" && OpensWeekly(w[1]))
    requires |body| >= 4 && body[0] == "" && !OpensWeekly(body[1])
    ensures var lines := [header] + w + body;
      |lines| >= 5 && lines[1] == "" && (OpensWeekly(lines[2]) <==> |w| > 0)
  {
    var lines := [header] + w + body;
    if |w| > 0 {
      assert lines[1] == w[0] && lines[2] == w[1];
    } else {
      assert lines[1] == body[0] && lines[2] == body[1];
    }
  }

  /**
   * The weekly block is in the message exactly on Mondays: the line after the header's blank
   * line opens with "LAST WEEK" on a Monday and on no other day.
   */
  lemma WeeklyBlockIffMonday(cfg: Config, store: Store, today: Day, dayOfYear: nat, dateText: string)
    requires |cfg.closers| > 0
    ensures var lines := MessageLines(cfg, store, today, dayOfYear, dateText);
      |lines| >= 5 && lines[1] == "" && (OpensWeekly(lines[2]) <==> IsMonday(today))
  {
    MessageBodyShape(cfg, store, today, dayOfYear);
    WeeklyPosition(Header(cfg, today, dateText), WeeklyBlock(cfg.milestones, store, today),
      MessageBody(cfg, store, today, dayOfYear));
  }

  /** The message always ends with the progress line, a blank line and the closer. */
  lemma MessageEndsWithProgressAndCloser(cfg: Config, store: Store, today: Day, dayOfYear: nat, dateText: string)
    requires |cfg.closers| > 0
    ensures var lines := MessageLines(cfg, store, today, dayOfYear, dateText);
      |lines| >= 5 &&
      lines[|lines| - 3] == ProgressLine(GetStats(cfg.milestones, store)) &&
      lines[|lines| - 2] == "" &&
      lines[|lines| - 1] == Closer(cfg.closers, dayOfYear)
  {
    MessageBodyShape(cfg, store, today, dayOfYear);
    LastLines([Header(cfg, today, dateText)] + WeeklyBlock(cfg.milestones, store, today),
      MessageBody(cfg, store, today, dayOfYear));
  }

  /** The last three lines of `front + body` are those of `body`. */
  lemma LastLines(front: seq<string>, body: seq<string>)
    requires |body| >= 3
    ensures var lines := front + body;
      lines[|lines| - 3] == body[|body| - 3] &&
      lines[|lines| - 2] == body[|body| - 2] &&
      lines[|lines| - 1] == body[|body| - 1]
  {
  }

  /**
   * `build_message`: load the store, compose the lines, join them with newlines and cap the
   * length. A malformed progress document is the load's parse error.
   */
  function BuildMessage(cfg: Config, file: Persisted, today: Day, dayOfYear: nat, dateText: string): (r: Result<string, LoadError>)
    requires |cfg.closers| > 0
    ensures r.Failure? <==> file.Corrupt?
    ensures r.Success? ==> |r.value| <= MaxSmsLength
    ensures r.Success? ==>
      var full := Join(MessageLines(cfg, Load(cfg.milestones, file).value, today, dayOfYear, dateText), "\n");
      (|full| <= MaxSmsLength ==> r.value == full) &&
      (|full| > MaxSmsLength ==> r.value == full[..MaxSmsLength - 3] + "...")
  {
    match Load(cfg.milestones, file)
    case Failure(e) => Failure(e)
    case Success(store) =>
      Success(Truncate(Join(MessageLines(cfg, store, today, dayOfYear, dateText), "\n")))
  }
}

=== FILE: roadmap.dfy ===
/**
 * The roadmap catalog: milestones with inclusive date windows and optional deadlines,
 * and the named phases used for the message header (src/roadmap.py).
 */
module Roadmap {
  import opened Wrappers
  import opened Seqs
  import opened Calendar

  /** One roadmap milestone. `dailyAction` is None for one-off items such as an application. */
  datatype Milestone = Milestone(
    id: string,
    phase: string,
    title: string,
    dailyAction: Option<string>,
    start: Day,
    end: Day,
    deadline: Option<Day>)

  /** A phase: a named calendar range (`name` is the source's display label). Phases may overlap; nothing forbids it. */
  datatype Phase = Phase(key: string, name: string, start: Day, end: Day)

  /** The milestone's window contains `today`, both ends included. */
  predicate IsActive(m: Milestone, today: Day) {
    m.start <= today <= m.end
  }

  predicate PhaseContains(p: Phase, today: Day) {
    p.start <= today <= p.end
  }

  /** The explicit deadline when there is one, else the end of the window. */
  function EffectiveDeadline(m: Milestone): Day {
    m.deadline.GetOr(m.end)
  }

  /** The shape the shipped catalog has: every window is non-empty and an explicit deadline is the window's end. */
  predicate WellFormed(catalog: seq<Milestone>) {
    forall i :: 0 <= i < |catalog| ==>
      catalog[i].start <= catalog[i].end &&
      (catalog[i].deadline.Some? ==> catalog[i].deadline.value == catalog[i].end)
  }

  /** `get_active_milestones`: the milestones active today, in catalog order. */
  function ActiveMilestones(catalog: seq<Milestone>, today: Day): (r: seq<Milestone>)
    ensures forall i :: 0 <= i < |r| ==> r[i] in catalog && r[i].start <= today <= r[i].end
    ensures forall i :: 0 <= i < |catalog| && catalog[i].start <= today <= catalog[i].end ==> catalog[i] in r
    ensures Subsequence(r, catalog)
  {
    Filter(catalog, m => IsActive(m, today))
  }

  /**
   * `get_current_phase`: the index of the first phase, in declaration order, whose
   * inclusive range contains `today`, or None when no range does.
   */
  function CurrentPhase(phases: seq<Phase>, today: Day): (r: Option<nat>)
    ensures r.None? <==> forall i :: 0 <= i < |phases| ==> !PhaseContains(phases[i], today)
    ensures r.Some? ==> r.value < |phases| && PhaseContains(phases[r.value], today)
    ensures r.Some? ==> forall j :: 0 <= j < r.value ==> !PhaseContains(phases[j], today)
    decreases |phases|
  {
    if |phases| == 0 then None
    else if PhaseContains(phases[0], today) then Some(0)
    else match CurrentPhase(phases[1..], today)
      case None => None
      case Some(i) => Some(i + 1)
  }

  /** Both ends of a milestone window are inclusive; the day after the end is outside it. */
  lemma ActiveBoundaries(catalog: seq<Milestone>, m: Milestone)
    requires m in catalog && m.start <= m.end
    ensures m in ActiveMilestones(catalog, m.start)
    ensures m in ActiveMilestones(catalog, m.end)
    ensures m !in ActiveMilestones(catalog, m.end + 1)
    ensures m !in ActiveMilestones(catalog, m.start - 1)
  {
  }

  /** When two phases overlap, every shared day belongs to the one declared first. */
  lemma OverlapGoesToEarlierPhase(phases: seq<Phase>, i: nat, j: nat, today: Day)
    requires i < j < |phases|
    requires PhaseContains(phases[i], today) && PhaseContains(phases[j], today)
    ensures CurrentPhase(phases, today).Some?
    ensures CurrentPhase(phases, today).value <= i
  {
  }
}

=== FILE: scenarios.dfy ===
/**
 * Worked examples of the whole reminder on a one-milestone catalog: a fresh store on a Sunday,
 * and the milestone completed a few days before a Tuesday.
 */
module Scenarios {
  import opened Wrappers
  import opened Seqs
  import opened Calendar
  import opened Roadmap
  import opened Progress
  import opened Reminder
  import opened Text
  import Shipped

  const Jan01: Day := 739617
  const Jan15: Day := 739631
  const Jan20: Day := 739636
  const Feb01: Day := 739648
  const May01: Day := 739737

  /** The scenario dates are the day numbers of 2026-01-01, -01-15, -01-20, -02-01 and -05-01. */
  lemma ScenarioDates()
    ensures Jan01 == Ordinal(2026, 1, 1) && Jan15 == Ordinal(2026, 1, 15) && Jan20 == Ordinal(2026, 1, 20)
    ensures Feb01 == Ordinal(2026, 2, 1) && May01 == Ordinal(2026, 5, 1)
    ensures Weekday(Jan20) == 1 && Weekday(Feb01) == 6
  {
  }

  const X := Milestone("x", "spring-2026", "X", Some("do x"), Jan01, May01, None)

  const OneMilestone := Config([X], Shipped.Phases, Shipped.Closers)

  const Fresh: Store := map["x" := Pending]

  const Done: Store := map["x" := Entry(true, Some(Jan15))]

  lemma DefaultsOfX()
    ensures DefaultProgress([X]) == Fresh
  {
    var d := DefaultProgress([X]);
    assert [X][0].id == "x";
    assert d.Keys == {"x"};
  }

  lemma FreshFocus()
    ensures FocusMilestones([X], Fresh, Feb01) == [X]
    ensures TopFocus([X], Fresh, Feb01, FocusCount) == ["do x"]
    ensures FocusLines(["do x"]) == ["  1. do x"]
  {
    assert X in FocusMilestones([X], Fresh, Feb01);
    FocusLineOne();
  }

  lemma FocusLineOne()
    ensures FocusLines(["do x"]) == ["  1. do x"]
  {
    assert NatToString(1) == "1";
    assert FocusLines(["do x"])[0] == "  1. do x";
  }

  lemma FreshNothingDue()
    ensures Overdue([X], Fresh, Feb01) == []
    ensures Upcoming([X], Fresh, Feb01, UpcomingDays) == []
    ensures WeeklySummary([X], Fresh, Feb01).None?
  {
    assert UpcomingCandidates([X], Fresh, Feb01, UpcomingDays) == [];
  }

  lemma FreshProgress()
    ensures ProgressLine(GetStats([X], Fresh)) == "PROGRESS: 0/1 milestones (0%)"
  {
    assert GetStats([X], Fresh) == Stats(0, 1);
  }

  /** 2026-02-01 falls in the spring phase, the first one declared. */
  lemma FreshPhase()
    ensures CurrentPhase(OneMilestone.phases, Feb01) == Some(0)
    ensures OneMilestone.phases[0].key == "spring-2026"
    ensures OneMilestone.phases[0].name == "Spring 2026 — Final Semester"
  {
    assert OneMilestone.phases == Shipped.Phases;
    assert PhaseContains(Shipped.Phases[0], Feb01);
  }

  /** The header's three parts joined; kept apart so that the literal step is proved in a small context. */
  lemma HeaderText()
    ensures "Sunday 02/01" + " | " + "Spring 2026 — Final Semester" == "Sunday 02/01 | Spring 2026 — Final Semester"
  {
  }

  lemma FreshHeader()
    ensures Header(OneMilestone, Feb01, "Sunday 02/01") == "Sunday 02/01 | Spring 2026 — Final Semester"
  {
    FreshPhase();
    HeaderNamesPhase(OneMilestone, Feb01, "Sunday 02/01");
    HeaderText();
  }

  lemma FreshCloser()
    ensures Closer(OneMilestone.closers, 32) == "One day closer to quant. Go."
  {
    assert OneMilestone.closers == Shipped.Closers;
    assert |Shipped.Closers| == 31;
    assert CloserIndex(31, 32) == 1;
    assert Shipped.Closers[1] == "One day closer to quant. Go.";
  }

  /** On the fresh store only the focus block is present: no weekly, overdue or upcoming block. */
  lemma FreshBlocks()
    ensures WeeklyBlock([X], Fresh, Feb01) == []
    ensures FocusBlock(TopFocus([X], Fresh, Feb01, FocusCount)) == ["", "TODAY:", "  1. do x"]
    ensures OverdueLines(Overdue([X], Fresh, Feb01)) == []
    ensures UpcomingBlock(Upcoming([X], Fresh, Feb01, UpcomingDays), Feb01) == []
  {
    FreshFocus();
    FreshNothingDue();
    assert OverdueLines([]) == [];
  }

  /** The part of the message after the header, for any configuration holding just "x". */
  lemma FreshBody(cfg: Config)
    requires cfg.milestones == [X] && |cfg.closers| > 0
    ensures MessageBody(cfg, Fresh, Feb01, 32)
         == ["", "TODAY:", "  1. do x", "", "PROGRESS: 0/1 milestones (0%)", "", Closer(cfg.closers, 32)]
  {
    FreshBlocks();
    FreshProgress();
  }

  /** The lines of the message for any configuration holding just "x", header and closer left symbolic. */
  lemma FreshLines(cfg: Config)
    requires cfg.milestones == [X] && |cfg.closers| > 0
    ensures MessageLines(cfg, Fresh, Feb01, 32, "Sunday 02/01")
         == [Header(cfg, Feb01, "Sunday 02/01"), "", "TODAY:", "  1. do x", "",
             "PROGRESS: 0/1 milestones (0%)", "", Closer(cfg.closers, 32)]
  {
    FreshBlocks();
    FreshBody(cfg);
  }

  const FreshMessageLines: seq<string> := ["Sunday 02/01 | Spring 2026 — Final Semester", "", "TODAY:", "  1. do x", "",
    "PROGRESS: 0/1 milestones (0%)", "", "One day closer to quant. Go."]

  /** The joined message has 122 characters, well under the cap. */
  lemma FreshLength()
    ensures |Join(FreshMessageLines, "\n")| == 122
  {
    var lines := FreshMessageLines;
    assert |Join(lines[7..], "\n")| == 28;
    assert Join(lines[6..], "\n") == lines[6] + "\n" + Join(lines[7..], "\n");
    assert |Join(lines[6..], "\n")| == 29;
    assert Join(lines[5..], "\n") == lines[5] + "\n" + Join(lines[6..], "\n");
    assert |Join(lines[5..], "\n")| == 59;
    assert Join(lines[4..], "\n") == lines[4] + "\n" + Join(lines[5..], "\n");
    assert |Join(lines[4..], "\n")| == 60;
    assert Join(lines[3..], "\n") == lines[3] + "\n" + Join(lines[4..], "\n");
    assert |Join(lines[3..], "\n")| == 70;
    assert Join(lines[2..], "\n") == lines[2] + "\n" + Join(lines[3..], "\n");
    assert |Join(lines[2..], "\n")| == 77;
    assert Join(lines[1..], "\n") == lines[1] + "\n" + Join(lines[2..], "\n");
    assert |Join(lines[1..], "\n")| == 78;
    assert Join(lines[0..], "\n") == lines[0] + "\n" + Join(lines[1..], "\n");
    assert |Join(lines[0..], "\n")| == 122;
  }

  /**
   * A fresh store on 2026-02-01 (day 32 of the year): the focus block is exactly "1. do x",
   * nothing is overdue or upcoming, progress is 0/1 (0%), and the message is exactly these
   * eight lines joined with newlines.
   */
  lemma FreshStoreMessage()
    ensures BuildMessage(OneMilestone, Absent, Feb01, 32, "Sunday 02/01") == Success(Join(FreshMessageLines, "\n"))
  {
    DefaultsOfX();
    assert OneMilestone.milestones == [X];
    assert Load(OneMilestone.milestones, Absent) == Success(Fresh);
    FreshLines(OneMilestone);
    FreshHeader();
    FreshCloser();
    FreshLength();
  }

  /** Marking "x" on 2026-01-15 with no progress file yields the completed store. */
  lemma MarkXOnJan15()
    ensures MarkComplete([X], Absent, "x", Jan15) == Success(Done)
  {
    DefaultsOfX();
    assert Load([X], Absent) == Success(Fresh);
    assert Fresh["x" := Entry(true, Some(Jan15))] == Done;
  }

  /**
   * "x" marked complete on 2026-01-15; on Tuesday 2026-01-20 there is no weekly block, no focus
   * task and progress reads 1/1 (100%).
   */
  lemma CompletedBeforeTuesday()
    ensures MarkComplete([X], Absent, "x", Jan15) == Success(Done)
    ensures WeeklySummary([X], Done, Jan20).None?
    ensures TopFocus([X], Done, Jan20, FocusCount) == []
    ensures ProgressLine(GetStats([X], Done)) == "PROGRESS: 1/1 milestones (100%)"
  {
    MarkXOnJan15();
    assert IsCompleted(Done, "x");
    assert FocusMilestones([X], Done, Jan20) == [];
    DoneProgress();
  }

  lemma DoneProgress()
    ensures ProgressLine(GetStats([X], Done)) == "PROGRESS: 1/1 milestones (100%)"
  {
    assert GetStats([X], Done) == Stats(1, 1);
  }
}

=== FILE: seqs.dfy ===
/** Generic sequence notions used by the list comprehensions and slices of the reminder. */
module Seqs {

  /** `a` is `b` with some elements deleted; the remaining elements keep their order. */
  predicate Subsequence<T(==)>(a: seq<T>, b: seq<T>)
    decreases |b|
  {
    |a| == 0 ||
    (|b| > 0 && ((a[0] == b[0] && Subsequence(a[1..], b[1..])) || Subsequence(a, b[1..])))
  }

  /** Python's `[x for x in s if p(x)]`. */
  function Filter<T(==)>(s: seq<T>, p: T -> bool): (r: seq<T>)
    ensures |r| <= |s|
    ensures forall i :: 0 <= i < |r| ==> r[i] in s && p(r[i])
    ensures forall i :: 0 <= i < |s| && p(s[i]) ==> s[i] in r
    ensures Subsequence(r, s)
  {
    if |s| == 0 then []
    else if p(s[0]) then [s[0]] + Filter(s[1..], p)
    else Filter(s[1..], p)
  }

  /** The filter keeps every copy of a kept element: each element occurs as often as in `s`, or not at all. */
  lemma {:induction false} FilterMultiplicity<T>(s: seq<T>, p: T -> bool)
    ensures forall x :: multiset(Filter(s, p))[x] == if p(x) then multiset(s)[x] else 0
    decreases |s|
  {
    if |s| > 0 {
      FilterMultiplicity(s[1..], p);
      assert s == [s[0]] + s[1..];
    }
  }

  /** Python's slice `s[:n]` for a non-negative `n`. */
  function Take<T>(s: seq<T>, n: nat): (r: seq<T>)
    ensures |r| == if n < |s| then n else |s|
    ensures r <= s
    ensures |s| <= n ==> r == s
  {
    if n < |s| then s[..n] else s
  }

  /** Filtering a sequence that starts with `x` decides `x` first, then filters the rest. */
  lemma FilterCons<T>(x: T, s: seq<T>, p: T -> bool)
    ensures Filter([x] + s, p) == if p(x) then [x] + Filter(s, p) else Filter(s, p)
  {
    assert ([x] + s)[1..] == s;
  }

  /** Every element of a subsequence occurs in the sequence it was taken from. */
  lemma {:induction false} SubsequenceMembers<T>(a: seq<T>, b: seq<T>)
    requires Subsequence(a, b)
    ensures forall x :: x in a ==> x in b
    decreases |b|
  {
    if |a| == 0 {
    } else if a[0] == b[0] && Subsequence(a[1..], b[1..]) {
      SubsequenceMembers(a[1..], b[1..]);
      forall x | x in a ensures x in b {
        if x != a[0] {
          assert x in a[1..];
        }
      }
    } else {
      SubsequenceMembers(a, b[1..]);
    }
  }

  /** A sequence is a subsequence of itself. */
  lemma {:induction false} SubsequenceRefl<T>(a: seq<T>)
    ensures Subsequence(a, a)
    decreases |a|
  {
    if |a| > 0 {
      SubsequenceRefl(a[1..]);
    }
  }

  /** A prefix of a subsequence is still a subsequence. */
  lemma {:induction false} PrefixSubsequence<T>(a: seq<T>, b: seq<T>, n: nat)
    requires Subsequence(a, b)
    requires n <= |a|
    ensures Subsequence(a[..n], b)
    decreases |b|
  {
    if n == 0 {
    } else if a[0] == b[0] && Subsequence(a[1..], b[1..]) {
      PrefixSubsequence(a[1..], b[1..], n - 1);
      assert a[..n][0] == b[0];
      assert a[..n][1..] == a[1..][..n - 1];
    } else {
      PrefixSubsequence(a, b[1..], n);
    }
  }

  /** Subsequence is transitive: filtering a filtered list keeps the original order. */
  lemma {:induction false} SubsequenceTrans<T>(a: seq<T>, b: seq<T>, c: seq<T>)
    requires Subsequence(a, b)
    requires Subsequence(b, c)
    ensures Subsequence(a, c)
    decreases |c|
  {
    if |a| == 0 {
    } else if |b| == 0 {
    } else if b[0] == c[0] && Subsequence(b[1..], c[1..]) {
      if a[0] == b[0] && Subsequence(a[1..], b[1..]) {
        SubsequenceTrans(a[1..], b[1..], c[1..]);
      } else {
        SubsequenceTrans(a, b[1..], c[1..]);
      }
    } else {
      SubsequenceTrans(a, b, c[1..]);
    }
  }

  /** Python's `sep.join(parts)`. */
  function Join(parts: seq<string>, sep: string): (joined: string)
    decreases |parts|
  {
    if |parts| == 0 then ""
    else if |parts| == 1 then parts[0]
    else parts[0] + sep + Join(parts[1..], sep)
  }
}

=== FILE: shipped.dfy ===
/**
 * The data the reminder ships with: the roadmap milestones and phases (src/roadmap.py) and the
 * closing lines (src/send_reminder.py), with the facts about them the rest of the model relies on.
 */
module Shipped {
  import opened Wrappers
  import opened Calendar
  import opened Roadmap
  import opened Reminder

  /** The calendar dates the shipped data uses, as day numbers (`DatesAreOrdinals` checks them). */
  const D2026_01_13: Day := 739629
  const D2026_02_01: Day := 739648
  const D2026_05_08: Day := 739744
  const D2026_05_31: Day := 739767
  const D2026_06_01: Day := 739768
  const D2026_07_01: Day := 739798
  const D2026_07_31: Day := 739828
  const D2026_08_15: Day := 739843
  const D2026_08_31: Day := 739859
  const D2026_09_01: Day := 739860
  const D2026_09_30: Day := 739889
  const D2026_12_15: Day := 739965
  const D2026_12_31: Day := 739981
  const D2027_01_01: Day := 739982
  const D2027_02_28: Day := 740040
  const D2027_03_01: Day := 740041
  const D2027_03_15: Day := 740055
  const D2027_03_31: Day := 740071

  /** `ROADMAP`, in declaration order. */
  const Milestones: seq<Milestone> := [
      Milestone("calc3", "spring-2026",
        "Earn an A in Calculus 3",
        Some("3-5 Calc 3 practice problems (30 min)"),
        D2026_01_13, D2026_05_08, None),
      Milestone("linalg", "spring-2026",
        "Earn an A in Linear Algebra",
        Some("3-5 Linear Algebra practice problems (30 min)"),
        D2026_01_13, D2026_05_08, None),
      Milestone("econ4960r", "spring-2026",
        "ECON 4960R research project (quant-focused)",
        Some("45 min on research data/analysis/writing"),
        D2026_01_13, D2026_05_08, None),
      Milestone("clm_book", "spring-2026",
        "CLM: Econometrics of Financial Markets",
        Some("5-10 pages CLM + derivations (30 min)"),
        D2026_01_13, D2026_05_31, None),
      Milestone("python_numpy_pandas", "spring-2026",
        "Python NumPy & Pandas mastery",
        Some("One financial data exercise in NumPy/Pandas (30 min)"),
        D2026_01_13, D2026_05_31, None),
      Milestone("rust_book", "spring-2026",
        "The Rust Programming Language (chapters 7-20)",
        Some("Read one section of the Rust book + code examples (30 min)"),
        D2026_01_13, D2026_05_31, None),
      Milestone("gre_prep_spring", "spring-2026",
        "Start GRE prep",
        Some("30 min GRE quant problems or verbal review"),
        D2026_02_01, D2026_05_31, None),
      Milestone("diff_eq", "summer-2026",
        "Differential Equations (MIT OCW 18.03)",
        Some("1 hr DiffEq lecture + problems"),
        D2026_06_01, D2026_08_31, None),
      Milestone("probability_ross", "summer-2026",
        "Sheldon Ross: A First Course in Probability",
        Some("10-15 pages Ross + examples (45 min)"),
        D2026_06_01, D2026_08_31, None),
      Milestone("advanced_sql", "summer-2026",
        "Advanced SQL — window functions, CTEs",
        Some("One LeetCode SQL problem (20 min)"),
        D2026_06_01, D2026_08_31, None),
      Milestone("scipy_statsmodels", "summer-2026",
        "SciPy & statsmodels — regressions, GARCH, time series",
        Some("Implement one model in SciPy/statsmodels (30 min)"),
        D2026_06_01, D2026_08_31, None),
      Milestone("take_gre", "summer-2026",
        "Take the GRE — target 169+ Quant",
        None,
        D2026_06_01, D2026_08_15, Some(D2026_08_15)),
      Milestone("brown_start", "summer-2026",
        "Start at Brown Advisory — crush first 90 days",
        Some("Show up, learn fast, build relationships"),
        D2026_07_01, D2026_09_30, None),
      Milestone("git_mastery", "summer-2026",
        "Git & GitHub workflows mastery",
        Some("Practice Git workflows (branching, PRs, rebasing)"),
        D2026_06_01, D2026_07_31, None),
      Milestone("real_analysis", "fall-2026",
        "Intro Real Analysis: Abbott's Understanding Analysis",
        Some("One section Abbott + proofs (45 min)"),
        D2026_09_01, D2026_12_31, None),
      Milestone("shreve_vol1", "fall-2026",
        "Shreve Vol I: Stochastic Calculus (discrete-time)",
        Some("Read + work through Shreve Vol I (45 min)"),
        D2026_09_01, D2026_12_31, None),
      Milestone("hull_derivatives", "fall-2026",
        "Hull: Options, Futures, and Other Derivatives",
        Some("One section Hull + problems (30 min)"),
        D2026_09_01, D2026_12_31, None),
      Milestone("portfolio_theory", "fall-2026",
        "Portfolio theory: Markowitz, Black-Litterman, factor investing",
        Some("Study portfolio theory concepts + implementation (30 min)"),
        D2026_09_01, D2026_12_31, None),
      Milestone("cpp_oop", "fall-2026",
        "C++ OOP — classes, templates, STL",
        Some("One C++ lesson (30 min)"),
        D2026_09_01, D2026_12_31, None),
      Milestone("sklearn_ml", "fall-2026",
        "Scikit-learn ML basics",
        Some("ML exercise: regression, classification, cross-validation (30 min)"),
        D2026_09_01, D2026_12_31, None),
      Milestone("rec_letters", "fall-2026",
        "Lock in rec letters: Prof Lastrapes + Brown Advisory CEO",
        None,
        D2026_09_01, D2026_12_15, Some(D2026_12_15)),
      Milestone("quant_projects", "fall-2026",
        "Build quant projects (optimizer, Fama-French, momentum backtest)",
        Some("Work on quant project code (45 min)"),
        D2026_09_01, D2026_12_31, None),
      Milestone("work_analytics", "fall-2026",
        "Volunteer for portfolio analytics projects at work",
        Some("Look for analytics opportunities at Brown Advisory"),
        D2026_09_01, D2026_12_31, None),
      Milestone("work_python_tools", "fall-2026",
        "Build Python tools that solve real problems at Brown Advisory",
        Some("Build/improve a Python tool for work (30 min)"),
        D2026_09_01, D2026_12_31, None),
      Milestone("sop_draft", "apps-2027",
        "Draft and finalize Statement of Purpose",
        Some("Work on SoP drafts and revisions (45 min)"),
        D2027_01_01, D2027_02_28, None),
      Milestone("grinold_kahn", "apps-2027",
        "Grinold & Kahn: Active Portfolio Management",
        Some("Read Grinold & Kahn (30 min)"),
        D2027_01_01, D2027_03_31, None),
      Milestone("portfolio_dashboard", "apps-2027",
        "Interactive portfolio dashboard (Streamlit/Dash)",
        Some("Build portfolio dashboard (45 min)"),
        D2027_01_01, D2027_02_28, None),
      Milestone("app_gatech", "apps-2027",
        "Submit Georgia Tech MSQCF application",
        None,
        D2027_01_01, D2027_03_01, Some(D2027_03_01)),
      Milestone("app_others", "apps-2027",
        "Submit NC State, UNC Charlotte, JHU applications",
        None,
        D2027_01_01, D2027_03_15, Some(D2027_03_15)),
      Milestone("github_portfolio", "apps-2027",
        "GitHub portfolio: 3+ well-documented quant repos",
        Some("Polish and document GitHub repos (30 min)"),
        D2027_01_01, D2027_03_15, None)
  ]

  /** `PHASES`, in the dictionary's insertion order. */
  const Phases: seq<Phase> := [
      Phase("spring-2026", "Spring 2026 — Final Semester", D2026_01_13, D2026_05_31),
      Phase("summer-2026", "Summer 2026 — Brown Advisory Start", D2026_06_01, D2026_09_30),
      Phase("fall-2026", "Fall 2026 — Building at Brown Advisory", D2026_09_01, D2026_12_31),
      Phase("apps-2027", "Jan–Mar 2027 — Application Sprint", D2027_01_01, D2027_03_31)
  ]

  /** `MOTIVATIONAL_CLOSERS`. */
  const Closers: seq<string> := [
      "The 3.1 doesn't define you. The work does.",
      "One day closer to quant. Go.",
      "Discipline > motivation. Every single day.",
      "You're building something most people won't even attempt.",
      "The gap between you and them is closing. Keep going.",
      "Future you is counting on today's work.",
      "Quant desks don't care about excuses. Put in the reps.",
      "Small daily gains compound. You know this.",
      "Nobody's coming to save you. That's your superpower.",
      "The math doesn't lie. Neither does the effort.",
      "Brown Advisory is step one. Georgia Tech is step two. Move.",
      "Every problem you solve today is one less standing in your way.",
      "Consistency beats talent when talent doesn't show up.",
      "The people who get in did the work. Be one of them.",
      "Read the page. Solve the problem. Ship the code. Repeat.",
      "You chose the hard path. Now walk it.",
      "Your competition is studying right now. Are you?",
      "Make today undeniable.",
      "Stack the days. That's all this is.",
      "The only shortcut is not stopping.",
      "169 Quant. Georgia Tech. It's all within reach if you grind.",
      "You're not behind. You're building from a different angle.",
      "This semester's A's are your application's foundation.",
      "Do the work nobody sees so you can do the work everybody wants.",
      "Math is the language. Learn to speak it fluently.",
      "One derivation at a time. One program at a time.",
      "You're not preparing for a job. You're building a career.",
      "The hard part isn't knowing what to do. It's doing it daily.",
      "Prove it with code. Prove it with math. Prove it with results.",
      "Clock in. No days off from the mission.",
      "Your brother's at the Naval Academy grinding. Match that energy."
  ]

  const ShippedConfig := Config(Milestones, Phases, Closers)

  /** Each date constant is the day number of the calendar date its name spells. */
  lemma DatesAreOrdinals()
    ensures D2026_01_13 == Ordinal(2026, 1, 13)
    ensures D2026_02_01 == Ordinal(2026, 2, 1)
    ensures D2026_05_08 == Ordinal(2026, 5, 8)
    ensures D2026_05_31 == Ordinal(2026, 5, 31)
    ensures D2026_06_01 == Ordinal(2026, 6, 1)
    ensures D2026_07_01 == Ordinal(2026, 7, 1)
    ensures D2026_07_31 == Ordinal(2026, 7, 31)
    ensures D2026_08_15 == Ordinal(2026, 8, 15)
    ensures D2026_08_31 == Ordinal(2026, 8, 31)
    ensures D2026_09_01 == Ordinal(2026, 9, 1)
    ensures D2026_09_30 == Ordinal(2026, 9, 30)
    ensures D2026_12_15 == Ordinal(2026, 12, 15)
    ensures D2026_12_31 == Ordinal(2026, 12, 31)
    ensures D2027_01_01 == Ordinal(2027, 1, 1)
    ensures D2027_02_28 == Ordinal(2027, 2, 28)
    ensures D2027_03_01 == Ordinal(2027, 3, 1)
    ensures D2027_03_15 == Ordinal(2027, 3, 15)
    ensures D2027_03_31 == Ordinal(2027, 3, 31)
  {
  }

  /** The shipped catalog holds 30 milestones, four phases and 31 closing lines. */
  lemma ShippedSizes()
    ensures |Milestones| == 30 && |Phases| == 4 && |Closers| == 31
  {
  }

  /** Every shipped window is non-empty and every explicit deadline is the window's end. */
  lemma ShippedWellFormed()
    ensures WellFormed(Milestones)
  {
  }

  /** The four milestones with an explicit deadline are exactly the one-off items without a daily action. */
  lemma ShippedDeadlines()
    ensures forall i :: 0 <= i < |Milestones| ==>
      (Milestones[i].deadline.Some? <==> Milestones[i].dailyAction.None?)
    ensures forall i :: 0 <= i < |Milestones| ==> EffectiveDeadline(Milestones[i]) == Milestones[i].end
  {
  }

  /**
   * September 2026 lies in both the summer and the fall phase; the summer phase, declared first,
   * wins, and the fall phase is current only from October.
   */
  lemma SeptemberIsSummer(today: Day)
    requires D2026_09_01 <= today <= D2026_09_30
    ensures PhaseContains(Phases[2], today)
    ensures CurrentPhase(Phases, today) == Some(1)
    ensures Phases[1].key == "summer-2026"
  {
  }

  /** The phases cover 2026-01-13 to 2027-03-31 without a gap; outside that range the header is off-schedule. */
  lemma PhaseCoverage(today: Day)
    ensures CurrentPhase(Phases, today).Some? <==> D2026_01_13 <= today <= D2027_03_31
  {
    if D2026_01_13 <= today <= D2027_03_31 {
      var i := if today <= D2026_05_31 then 0 else if today <= D2026_09_30 then 1 else if today <= D2026_12_31 then 2 else 3;
      assert PhaseContains(Phases[i], today);
    } else {
      forall i | 0 <= i < |Phases| ensures !PhaseContains(Phases[i], today) {
      }
    }
  }
}

=== FILE: text.dfy ===
/** Decimal rendering of counts, as Python's f-strings render an `int`. */
module Text {

  function DigitChar(d: nat): (c: char)
    requires d < 10
    ensures '0' <= c <= '9'
    ensures c as int - '0' as int == d
  {
    ('0' as int + d) as char
  }

  predicate AllDigits(s: string) {
    forall i :: 0 <= i < |s| ==> '0' <= s[i] <= '9'
  }

  /** `str(n)` for a non-negative `n`: at least one digit and no leading zero. */
  function NatToString(n: nat): (s: string)
    ensures |s| >= 1 && AllDigits(s)
    ensures (n > 0 || |s| > 1) ==> s[0] != '0'
    decreases n
  {
    if n < 10 then [DigitChar(n)] else NatToString(n / 10) + [DigitChar(n % 10)]
  }

  /** The number a string of decimal digits denotes (Python's `int(s)`). */
  function DigitsValue(s: string): (n: nat)
    requires AllDigits(s)
    decreases |s|
  {
    if |s| == 0 then 0
    else DigitsValue(s[..|s| - 1]) * 10 + (s[|s| - 1] as int - '0' as int)
  }

  /** Rendering a count and reading it back gives the count. */
  lemma {:induction false} NatToStringRoundTrip(n: nat)
    ensures DigitsValue(NatToString(n)) == n
    decreases n
  {
    if n >= 10 {
      NatToStringRoundTrip(n / 10);
      var s := NatToString(n);
      assert s[..|s| - 1] == NatToString(n / 10);
    }
  }
}

=== FILE: wrappers.dfy ===
/** Option and Result values, standing in for Python's `None` and for raised errors. */
module Wrappers {

  /** A value that may be absent (Python's `X | None`). */
  datatype Option<+T> = None | Some(value: T) {

    /** The value, or `default` when absent (Python's `dict.get(key, default)` idiom). */
    function GetOr(default: T): T {
      match this
      case Some(v) => v
      case None => default
    }
  }

  /** Either a value or the error the source raises instead of returning one. */
  datatype Result<+R, +E> = Success(value: R) | Failure(error: E)
}
